=== FILE: README.md ===
# 2D-Game-Engine core in Dafny

A model of the render-loop and scene core of the Java engine `rusocode/2D-Game-Engine`. It covers:

- the **key listener**: a 350-entry pressed table;
- the **mouse listener**: position, previous position, three buttons, scroll and the drag flag;
- the **shader**: source loading, then compile, attach, link and delete, each with its error report;
- the **level editor scene**: one coloured quad, uploaded in `init` and drawn in `update`;
- the **window**: constructor defaults, `changeScene` and the frame loop's `dt` handling.

Every OpenGL and GLFW call is recorded as an uninterpreted `Event` in a trace (`GlEvents`).

- An operation that cannot fail returns a `Step`: the new state plus the calls it made.
- One that can stop at a Java `assert false` returns an `Outcome`. It adds a `Fault` and keeps the fields assigned before the assertion.
- Answers from the graphics library come in as an explicit "device" record. These are the compile and link statuses and the generated object ids.
- Resource loading is a function parameter.
- The clock readings of the loop are a sequence parameter.
- The three singletons (the key listener, the mouse listener and the window) are immutable values passed through pure transitions.

Files:

- `wrappers.dfy`: `Option` and `Result`.
- `gl_events.dfy`: the event datatype, event classes with counting and ordering predicates, and an interpreter for GL's bound program, bound vertex array and enabled attribute slots.
- `key_listener.dfy`, `mouse_listener.dfy`, `shader.dfy` (module `Renderer`), `level_editor_scene.dfy`, `window.dfy`.

Source paths below are relative to the repository root.

## Model

| member | source | states |
|---|---|---|
| KeyListener.Initial | src/main/java/com/punkipunk/jade/KeyListener.java:8 | a fresh listener reports every one of the 350 keys released |
| KeyListener.KeyCallback | src/main/java/com/punkipunk/jade/KeyListener.java:21-24 | a press marks the key held and a release marks it released. Any other action (repeat) changes nothing, whatever the key code, and no other key's entry moves |
| KeyListener.ReplayIsLastPressOrRelease | src/main/java/com/punkipunk/jade/KeyListener.java:21-28 | after any sequence of in-range key callbacks, a key reads as held exactly when the last press or release delivered for it was a press. With none, it keeps its starting value |
| KeyListener.IsKeyPressed | src/main/java/com/punkipunk/jade/KeyListener.java:26-28 | reports the table entry of an in-range key code |
| KeyListener.IsKeyPressedAfterReplay | src/main/java/com/punkipunk/jade/KeyListener.java:21-28 | after any deliverable callbacks, `isKeyPressed` reports whether the last press or release of that key was a press, or the starting value if there was none |
| KeyListener.RepeatIsNoOp | src/main/java/com/punkipunk/jade/KeyListener.java:21-24 | a repeat leaves the table unchanged for every key code, including -1 |
| KeyListener.PressThenRelease | src/main/java/com/punkipunk/jade/KeyListener.java:21-28 | pressing then releasing key 65 reports it held, then released, with every key released at the end |
| MouseListener.Initial | src/main/java/com/punkipunk/jade/MouseListener.java:12-28 | the listener starts with zero scroll and zero positions, no button held and no drag |
| MouseListener.MousePosCallback | src/main/java/com/punkipunk/jade/MouseListener.java:30-37 | the old position becomes the previous one and the new position is stored. Dragging becomes "some button is held"; buttons and scroll are untouched |
| MouseListener.MouseButtonCallback | src/main/java/com/punkipunk/jade/MouseListener.java:39-49 | a press of a tracked button sets it and leaves the drag flag alone. A release of a tracked button clears it and clears dragging. An untracked button or another action changes nothing, and no other button moves. Any action other than press or release is accepted with any button, negative ones included |
| MouseListener.OtherActionIsNoOp | src/main/java/com/punkipunk/jade/MouseListener.java:39-49 | a repeat leaves the listener unchanged for every button, including -1 |
| MouseListener.MouseScrollCallback | src/main/java/com/punkipunk/jade/MouseListener.java:51-54 | the scroll offsets are replaced by the new ones and nothing else changes |
| MouseListener.EndFrame | src/main/java/com/punkipunk/jade/MouseListener.java:56-61 | scroll is zeroed and the previous position catches up, so both deltas read zero. Position, buttons and drag flag are kept |
| MouseListener.MouseButtonDown | src/main/java/com/punkipunk/jade/MouseListener.java:91-93 | a button past the table is never down. A tracked one is down exactly when its flag is set |
| MouseListener.X | src/main/java/com/punkipunk/jade/MouseListener.java:63-65 | reports the current x position |
| MouseListener.Y | src/main/java/com/punkipunk/jade/MouseListener.java:67-69 | reports the current y position |
| MouseListener.Dx | src/main/java/com/punkipunk/jade/MouseListener.java:71-73 | reports previous minus current x, so moving right gives a negative value |
| MouseListener.Dy | src/main/java/com/punkipunk/jade/MouseListener.java:75-77 | reports previous minus current y, so moving down the window gives a negative value |
| MouseListener.ScrollX | src/main/java/com/punkipunk/jade/MouseListener.java:79-81 | reports the horizontal scroll offset of the frame |
| MouseListener.ScrollY | src/main/java/com/punkipunk/jade/MouseListener.java:83-85 | reports the vertical scroll offset of the frame |
| MouseListener.IsDragging | src/main/java/com/punkipunk/jade/MouseListener.java:87-89 | reports the drag flag |
| MouseListener.MoveIsReported | src/main/java/com/punkipunk/jade/MouseListener.java:30-37 | after a move, the getters report the new position, the deltas are old minus new, and dragging reads true exactly when one of the three buttons reads down |
| MouseListener.ScrollIsReported | src/main/java/com/punkipunk/jade/MouseListener.java:51-54 | after a scroll, the scroll getters report the offsets just delivered and the deltas are unchanged |
| MouseListener.EndFrameIdempotent | src/main/java/com/punkipunk/jade/MouseListener.java:56-61 | ending a frame twice equals ending it once, and scroll reads zero both times |
| MouseListener.ScrollDoesNotAccumulate | src/main/java/com/punkipunk/jade/MouseListener.java:51-54 | two scroll callbacks leave only the second offsets |
| MouseListener.ReleaseEndsDragWhileOtherHeld | src/main/java/com/punkipunk/jade/MouseListener.java:43-47 | releasing one button while another is held ends the drag, and the other button still reads down |
| MouseListener.ReplayKeepsDragNeedsButton | src/main/java/com/punkipunk/jade/MouseListener.java:30-61 | every sequence of deliverable mouse callbacks and frame ends preserves "dragging implies some button is held" |
| MouseListener.ReplayFromInitialDragNeedsButton | src/main/java/com/punkipunk/jade/MouseListener.java:21-61 | from the initial listener, no deliverable callback sequence reports a drag with every button up |
| Renderer.New | src/main/java/com/punkipunk/renderer/Shader.java:21-28 | construction succeeds exactly when both sources load. The shader then stores both paths and sources, unlinked and unbound. Otherwise it fails with the missing-source error naming both paths |
| Renderer.Compile | src/main/java/com/punkipunk/renderer/Shader.java:30-81 | compile succeeds exactly when both stages compile and the program links. Each failure is told apart: the vertex stage fails, or it compiles and the fragment stage fails, or both compile and linking fails. Every failure logs its message. The program id is stored once linking is reached and not before |
| Renderer.CompileSuccessCalls | src/main/java/com/punkipunk/renderer/Shader.java:30-80 | a successful compile makes exactly these 15 calls: for each stage in turn create, hand over that stage's own loaded source, compile and read the status; then create the program, attach both stages, link, read the link status and delete both stages. Nothing is logged |
| Renderer.CompileVertexFailureCalls | src/main/java/com/punkipunk/renderer/Shader.java:34-47 | a vertex stage that fails makes its four stage calls, then reads the log length, prints the vertex-path message and reads the info log, and stops |
| Renderer.CompileFragmentFailureCalls | src/main/java/com/punkipunk/renderer/Shader.java:34-60 | a fragment stage that fails makes both stages' four calls, then the fragment report with the fragment-path message, and stops before any program call |
| Renderer.CompileLinkFailureCalls | src/main/java/com/punkipunk/renderer/Shader.java:34-75 | a failed link makes both stages' calls, create, both attaches, link and the status read, then the link report naming both paths, and never deletes the stages |
| Renderer.CompileVertexBeforeFragment | src/main/java/com/punkipunk/renderer/Shader.java:33-61 | every call about the vertex shader object comes before every call about the fragment shader object |
| Renderer.CompileFragmentOnlyAfterVertexSucceeds | src/main/java/com/punkipunk/renderer/Shader.java:40-52 | the fragment shader is compiled if and only if the vertex shader compiled |
| Renderer.CompileFailureNeverLinks | src/main/java/com/punkipunk/renderer/Shader.java:40-67 | when a stage fails to compile, nothing is attached, linked, link-queried or deleted |
| Renderer.CompileAttachesBeforeLink | src/main/java/com/punkipunk/renderer/Shader.java:63-67 | every attach precedes every link. When both stages compile, both shaders are attached to the program and it is linked exactly once; otherwise there is no attach or link |
| Renderer.CompileLinksOwnProgram | src/main/java/com/punkipunk/renderer/Shader.java:64-67 | no program other than the one created is ever linked, and with both stages compiled that program is linked |
| Renderer.CompileDeletesAfterLinkCheck | src/main/java/com/punkipunk/renderer/Shader.java:69-80 | shader objects are deleted only after the link-status query. On success both are deleted; on any failure none is |
| Renderer.CompileMakesOnlyCompileCalls | src/main/java/com/punkipunk/renderer/Shader.java:30-81 | compilation makes no call outside shader compilation, linking and error reporting |
| Renderer.Use | src/main/java/com/punkipunk/renderer/Shader.java:83-89 | the shader ends up marked in use. A program bind is issued exactly when it was not already in use, and the only call possible is a bind of its own program |
| Renderer.Detach | src/main/java/com/punkipunk/renderer/Shader.java:91-94 | program 0 is bound unconditionally and the shader is marked not in use |
| Renderer.UseTwiceBindsOnce | src/main/java/com/punkipunk/renderer/Shader.java:83-89 | from a shader not in use, two uses in a row issue a single bind, and the second use changes nothing |
| Renderer.UseAfterDetachRebinds | src/main/java/com/punkipunk/renderer/Shader.java:83-94 | after a detach, a use binds the program again |
| Renderer.UseBinds | src/main/java/com/punkipunk/renderer/Shader.java:83-89 | when the in-use flag agrees with GL's bound program, use leaves the shader's program bound and the two still agree |
| Renderer.DetachUnbinds | src/main/java/com/punkipunk/renderer/Shader.java:91-94 | detach leaves no program bound and the flag agrees with GL |
| LevelEditorScene.DecodeEncode | src/main/java/com/punkipunk/jade/LevelEditorScene.java:17-23 | reading the interleaved float array as 7-float vertices inverts writing the vertices out |
| LevelEditorScene.EncodeDecode | src/main/java/com/punkipunk/jade/LevelEditorScene.java:17-23 | writing the decoded vertices out again gives back any array whose length is a multiple of 7 |
| LevelEditorScene.DecodeAt | src/main/java/com/punkipunk/jade/LevelEditorScene.java:17-23 | vertex i of the decoded array is the seven floats starting at 7·i |
| LevelEditorScene.LayoutConstants | src/main/java/com/punkipunk/jade/LevelEditorScene.java:82-99 | the stride is 28 bytes (7 floats). Position is at byte 0 and colour at byte 12, and the two attributes cover the 7 floats |
| LevelEditorScene.LayoutAddressesComponents | src/main/java/com/punkipunk/jade/LevelEditorScene.java:82-99 | for every vertex, attribute and component, the byte address from stride and offset is float-aligned and inside the array. It reads exactly that component of the decoded vertex |
| LevelEditorScene.FirstTriangleWinds | src/main/java/com/punkipunk/jade/LevelEditorScene.java:17-37 | triangle 2, 1, 0 is counter-clockwise (positive cross product) |
| LevelEditorScene.SecondTriangleWinds | src/main/java/com/punkipunk/jade/LevelEditorScene.java:17-37 | triangle 0, 1, 3 is counter-clockwise |
| LevelEditorScene.QuadWinds | src/main/java/com/punkipunk/jade/LevelEditorScene.java:17-38 | take any four vertices equal to the records of the vertex array. The six element indices are in range for them, and both triangles wind counter-clockwise |
| LevelEditorScene.QuadGeometry | src/main/java/com/punkipunk/jade/LevelEditorScene.java:17-38 | the vertex array decodes to four vertices. The element array holds six in-range indices, and every triangle of it winds counter-clockwise |
| LevelEditorScene.Fresh | src/main/java/com/punkipunk/jade/LevelEditorScene.java:41-46 | a new scene has no shader and object ids 0, so it is not ready |
| LevelEditorScene.Init | src/main/java/com/punkipunk/jade/LevelEditorScene.java:49-101 | init succeeds exactly when the sources load and the shader compiles and links. The scene is then ready. Its shader is the one built from the two fixed paths and their loaded sources, with the linked program and not in use, and it holds the generated vertex array and buffer ids. On failure no buffer id changes, and missing sources stop it before any call. A compile or link failure keeps the shader just built, with both paths and sources, not in use, and its program id set only when the link failed |
| LevelEditorScene.InitConfiguresLayout | src/main/java/com/punkipunk/jade/LevelEditorScene.java:58-100 | a successful init ends with exactly these calls, in order: generate and bind the vertex array; generate, bind and fill the vertex buffer with 28 floats; the same for the index buffer with 6 indices; then attribute 0 as 3 floats at byte 0 and attribute 1 as 4 floats at byte 12, both with a 28-byte stride, each enabled right after its pointer is set |
| LevelEditorScene.InitLeavesLayoutBound | src/main/java/com/punkipunk/jade/LevelEditorScene.java:58-100 | after a successful init, whatever was bound before, the scene's vertex array is bound, slots 0 and 1 are enabled and the program binding is unchanged |
| LevelEditorScene.InitCompilesBeforeBuffers | src/main/java/com/punkipunk/jade/LevelEditorScene.java:52-71 | every shader compile and link call precedes every vertex array or buffer call |
| LevelEditorScene.InitLinksOwnProgramAndCreatesVao | src/main/java/com/punkipunk/jade/LevelEditorScene.java:52-59 | a successful init links its own program, links no other, and generates its vertex array |
| LevelEditorScene.InitMakesNoWindowCalls | src/main/java/com/punkipunk/jade/LevelEditorScene.java:49-101 | init never polls, clears, swaps or calls into a scene |
| LevelEditorScene.Update | src/main/java/com/punkipunk/jade/LevelEditorScene.java:103-128 | update leaves the scene ready and changes only the shader's in-use flag, which ends false |
| LevelEditorScene.UpdateDrawsOnce | src/main/java/com/punkipunk/jade/LevelEditorScene.java:103-128 | update issues exactly one draw call, covering all six indices |
| LevelEditorScene.UpdateDrawsWithEverythingBound | src/main/java/com/punkipunk/jade/LevelEditorScene.java:108-118 | when the in-use flag agrees with GL's bound program on entry, then at the draw call the scene's program and vertex array are bound and attribute slots 0 and 1 are enabled |
| LevelEditorScene.UpdateLeavesNothingBound | src/main/java/com/punkipunk/jade/LevelEditorScene.java:120-126 | after update, from any starting binding, no program or vertex array is bound and slots 0 and 1 are disabled |
| LevelEditorScene.UpdateMakesNoWindowCalls | src/main/java/com/punkipunk/jade/LevelEditorScene.java:103-128 | update never polls, clears, swaps or calls into a scene |
| Window.New | src/main/java/com/punkipunk/jade/Window.java:25-33 | the window is 800 by 600 and titled "LWJGL " plus the version. The clear colour is white and opaque, and there is no scene yet |
| Window.ChangeScene | src/main/java/com/punkipunk/jade/Window.java:35-48 | ids 0 and 1 make a new editor or level scene current, even when the editor's init then stops, and nothing else changes. For id 0 the current editor is the one init built from a fresh scene, and the calls are the marker plus that init's calls. On success it holds the generated ids and the linked, unbound program; on failure its ids are still 0. Only an unknown id gives the unknown-scene fault, with the window and calls untouched. Scene 0 succeeds exactly when the editor's init does, and scene 1 always does |
| Window.ChangeSceneInitsOnce | src/main/java/com/punkipunk/jade/Window.java:35-47 | a scene change calls init exactly once, and the call names the kind of the new current scene. An unknown id calls none |
| Window.UpdateCurrent | src/main/java/com/punkipunk/jade/Window.java:85 | a scene update starts with the call into that scene's update with `dt`, then makes no window-level call. The scene keeps its kind and stays ready. For the editor, the remaining calls are exactly the editor's update and the only change is that its shader ends not in use. For the level, the marker is the whole update |
| Window.Frame | src/main/java/com/punkipunk/jade/Window.java:78-87 | a loop pass keeps the window ready and changes at most the current scene, and only to one of the same kind. The editor keeps its vertex array, buffer and program ids. With negative `dt` it changes nothing |
| Window.FrameClearsToWindowColour | src/main/java/com/punkipunk/jade/Window.java:78-87 | every pass opens with the poll, the clear colour set to the window's own r, g, b, a and the clear, and ends with the swap |
| Window.NewWindowClearsWhite | src/main/java/com/punkipunk/jade/Window.java:25-33 | once a scene is current in a new window, every pass clears to opaque white, the colour the constructor set |
| Window.EditorFrameDrawsOnce | src/main/java/com/punkipunk/jade/Window.java:78-87 | a pass over the editor with non-negative `dt` makes exactly one draw call |
| Window.EditorFrameUnbinds | src/main/java/com/punkipunk/jade/Window.java:78-87 | after a pass over the editor with non-negative `dt`, whatever was bound before, no program and no vertex array are bound and attribute slots 0 and 1 are disabled |
| Window.FrameOrder | src/main/java/com/punkipunk/jade/Window.java:78-87 | within a pass: poll before clear, clear before update, update before swap, and exactly one swap |
| Window.FrameUpdateArgs | src/main/java/com/punkipunk/jade/Window.java:85 | a pass calls the scene's update with `dt` exactly when `dt` is not negative, and then only once |
| Window.FramesUpdateArgs | src/main/java/com/punkipunk/jade/Window.java:76-95 | over a run of passes, the update calls carry exactly the non-negative `dt` values, in order |
| Window.FramesSwapOnce | src/main/java/com/punkipunk/jade/Window.java:76-95 | a run of n passes swaps buffers exactly n times |
| Window.Loop | src/main/java/com/punkipunk/jade/Window.java:69-96 | the loop with its begin, end and `dt` variables equals the reference run of passes, with `dt` -1 first and then the time between consecutive clock readings. Its update calls carry exactly the non-negative ones, and it swaps once per pass |
| Window.DeltasSkipFirstFrame | src/main/java/com/punkipunk/jade/Window.java:71-92 | the first pass sees `dt` = -1 and never updates. Pass k + 1 sees clock reading k + 1 minus reading k |
| Window.MonotoneClockUpdates | src/main/java/com/punkipunk/jade/Window.java:71-92 | with a clock that never goes backwards, n passes make n - 1 updates, each with the length of the pass before it |
| Window.LevelFramesSkipEditor | src/main/java/com/punkipunk/jade/Window.java:41-44 | while the level is current, no pass calls the level editor's update |
| Window.EditorThenLevel | src/main/java/com/punkipunk/jade/Window.java:35-48 | changing to scene 0 and then scene 1 succeeds: the level is current and its init ran once. From then on no update goes to the editor |

## Left out

- GLFW initialisation, window hints, window creation, making the context current, swap interval, callback registration and teardown (`Window.java` `init` and `run`) are device and windowing calls with no logic to model. `glfwWindowShouldClose` becomes the number of clock readings handed to `Window.Loop`.
- `Window.init` selecting scene 0 at start-up is covered by `Window.ChangeScene` with id 0. The call itself is not modelled.
- The level scene's body is not part of this model. Its `init` and `update` appear only as the window's calls into it, and scene 1 is treated as always initialising.
- The scene base class is not part of this model beyond the two concrete scenes.
- `ResourceLoader` is not part of this model. Loading is a function parameter that returns a source text or nothing.
- The second print of each failure in `Shader.compile` prints the driver's information log. It is modelled as the info-log query only, because the log text comes from the driver.
- Java assertions turned off at run time: the model treats every `assert false` as stopping the operation. With assertions disabled the Java code would carry on with the partially built state.
- Floating point: vertex values, clock readings, `dt`, cursor positions and colours are exact reals. The `(float)` casts in the mouse getters and in `glClearColor` are not modelled. The vertex values (±0.5, 0, 1) are exact in binary floating point, so winding is checked on them directly.
- KeyListener.KeyCallback: for a press or release, requires the key code to be inside the 350-entry table. The Java code indexes the array unchecked for those two actions and would throw for any other code. Other actions are modelled for every key code.
- MouseListener.MouseButtonCallback: requires a non-negative button on a press or release. The Java guard checks only the upper bound, so a negative index would throw there. Other actions never index the table and accept any button.
- KeyListener.IsKeyPressed: requires a key code in the table. The Java getter indexes the array unchecked, so any other code would throw.
- MouseListener.MouseButtonDown: requires a non-negative button. The Java getter checks only `button < 3`, so a negative index would throw.
- MouseListener.Replay: takes only deliverable events, those without a negative button on a press or release, for the same reason.
- GPU resources of a replaced scene are never freed, in the source as in the model. No operation deletes vertex arrays, buffers or programs.
- The loop never calls `MouseListener.endFrame`; the model follows the code in this.
- The drag flag follows the code, not the "moved since the last press" description. It is recomputed as "some button is held" on every cursor move, and cleared by any tracked release.
- GL is modelled only as far as binding goes: the bound program, the bound vertex array and the enabled attribute slots. Buffer contents on the GPU are recorded as the length of the uploaded data.

=== FILE: gl_events.dfy ===
/**
  The graphics library and the windowing layer as seen by the engine: every call is an
  uninterpreted event appended to a trace. The only GL semantics modelled is the binding
  state (current program, bound vertex array, enabled attribute slots), interpreted by `Run`.
 */
module GlEvents {
  import opened Wrappers

  /** GLFW action codes passed to the key and mouse-button callbacks (GLFW_RELEASE, GLFW_PRESS, GLFW_REPEAT). */
  const ActionRelease: int := 0
  const ActionPress: int := 1
  const ActionRepeat: int := 2

  /** The pipeline stage a shader object was created for. */
  datatype Stage = VertexStage | FragmentStage

  /** Parameters queried with glGetShaderi / glGetProgrami. */
  datatype Param = CompileStatus | LinkStatus | InfoLogLength

  /** Buffer binding points used by the scene. */
  datatype BufferTarget = ArrayBuffer | ElementArrayBuffer

  /** The scene variants Window.changeScene can construct. */
  datatype SceneKind = LevelEditorKind | LevelKind

  /**
    One library call. Calls on a shader object also record the stage the object was created
    for, so that ordering statements do not depend on the ids the library hands out.
   */
  datatype Event =
    // windowing layer and frame loop
    | PollEvents
    | ClearColor(r: real, g: real, b: real, a: real)
    | ClearColorAndDepth
    | SwapBuffers
    // calls from the window into the current scene
    | InitScene(kind: SceneKind)
    | UpdateScene(kind: SceneKind, dt: real)
    // shader and program objects
    | CreateShader(stage: Stage, shader: int)
    | ShaderSource(stage: Stage, shader: int, source: string)
    | CompileShader(stage: Stage, shader: int)
    | GetShaderParam(stage: Stage, shader: int, param: Param)
    | GetShaderInfoLog(stage: Stage, shader: int)
    | CreateProgram(program: int)
    | AttachShader(program: int, stage: Stage, shader: int)
    | LinkProgram(program: int)
    | GetProgramParam(program: int, param: Param)
    | GetProgramInfoLog(program: int)
    | DeleteShader(stage: Stage, shader: int)
    | UseProgram(program: int)
    // a line printed to standard output
    | Log(message: string)
    // vertex arrays and buffers (all data is uploaded with GL_STATIC_DRAW)
    | GenVertexArray(vao: int)
    | BindVertexArray(vao: int)
    | GenBuffer(buffer: int)
    | BindBuffer(target: BufferTarget, buffer: int)
    | BufferData(target: BufferTarget, length: nat)
    | VertexAttribPointer(index: int, size: int, stride: int, offset: int)
    | EnableVertexAttribArray(index: int)
    | DisableVertexAttribArray(index: int)
    | DrawTriangles(count: int)

  /** Why the program stopped at a Java `assert false`. */
  datatype Fault =
    | MissingShaderSource(vertexPath: string, fragmentPath: string)
    | StageCompileFailed(stage: Stage)
    | LinkFailed
    | UnknownScene(id: int)

  /** The effect of an operation that cannot fail: the new state and the calls it made. */
  datatype Step<S> = Step(state: S, trace: seq<Event>)

  /**
    The effect of an operation that may stop at an assertion: the state as far as it had been
    assigned, the calls made up to that point, and the fault if one was hit.
   */
  datatype Outcome<S> = Outcome(state: S, trace: seq<Event>, fault: Option<Fault>)

  /** Calls about the shader object of `stage`, other than deleting it. */
  predicate StageWork(e: Event, stage: Stage)
  {
    (e.CreateShader? || e.ShaderSource? || e.CompileShader? || e.GetShaderParam? || e.GetShaderInfoLog?)
    && e.stage == stage
  }

  /** The calls shader compilation may make: shader and program objects, and the error report lines. */
  predicate CompileWork(e: Event)
  {
    || e.CreateShader? || e.ShaderSource? || e.CompileShader? || e.GetShaderParam?
    || e.GetShaderInfoLog? || e.CreateProgram? || e.AttachShader? || e.LinkProgram?
    || e.GetProgramParam? || e.GetProgramInfoLog? || e.DeleteShader? || e.Log?
  }

  /** The classes of calls that ordering and counting statements are about. */
  datatype Class =
    | VertexWork | FragmentWork
    | AttachCall | LinkCall | LinkOfOther(program: int) | LinkStatusQuery | DeleteCall
    | CompileCall | OtherThanCompile
    | BufferSetup | DrawCall | ProgramBind
    | SceneInit | SceneUpdate | UpdateOf(kind: SceneKind)
    | Clearing | Swap | Poll | WindowCall | BindingCall

  /** Whether call `e` belongs to class `c`. */
  predicate Is(c: Class, e: Event)
  {
    match c
    case VertexWork => StageWork(e, VertexStage)
    case FragmentWork => StageWork(e, FragmentStage)
    case AttachCall => e.AttachShader?
    case LinkCall => e.LinkProgram?
    case LinkOfOther(p) => e.LinkProgram? && e.program != p
    case LinkStatusQuery => e.GetProgramParam? && e.param == LinkStatus
    case DeleteCall => e.DeleteShader?
    case CompileCall => CompileWork(e)
    case OtherThanCompile => !CompileWork(e)
    case BufferSetup => e.GenVertexArray? || e.GenBuffer? || e.BindBuffer? || e.BufferData? || e.VertexAttribPointer?
    case DrawCall => e.DrawTriangles?
    case ProgramBind => e.UseProgram?
    case SceneInit => e.InitScene?
    case SceneUpdate => e.UpdateScene?
    case UpdateOf(k) => e.UpdateScene? && e.kind == k
    case Clearing => e.ClearColor? || e.ClearColorAndDepth?
    case Swap => e.SwapBuffers?
    case Poll => e.PollEvents?
    case BindingCall =>
      e.UseProgram? || e.BindVertexArray? || e.EnableVertexAttribArray? || e.DisableVertexAttribArray?
    case WindowCall =>
      e.PollEvents? || e.ClearColor? || e.ClearColorAndDepth? || e.SwapBuffers? || e.InitScene? || e.UpdateScene?
  }

  /** Each class of window-level calls is contained in `WindowCall`. */
  lemma WindowCallClasses()
    ensures forall e :: Is(SceneInit, e) ==> Is(WindowCall, e)
    ensures forall e :: Is(SceneUpdate, e) ==> Is(WindowCall, e)
    ensures forall k: SceneKind, e: Event :: Is(UpdateOf(k), e) ==> Is(WindowCall, e)
    ensures forall e :: Is(Clearing, e) ==> Is(WindowCall, e)
    ensures forall e :: Is(Swap, e) ==> Is(WindowCall, e)
    ensures forall e :: Is(Poll, e) ==> Is(WindowCall, e)
    ensures forall e :: Is(WindowCall, e) ==> Is(OtherThanCompile, e)
  {
  }

  /** Number of events in `t` of class `c`. */
  function Count(t: seq<Event>, c: Class): (n: nat)
    ensures n <= |t|
  {
    if t == [] then 0 else (if Is(c, t[0]) then 1 else 0) + Count(t[1..], c)
  }

  lemma {:induction false} CountConcat(s: seq<Event>, t: seq<Event>, c: Class)
    ensures Count(s + t, c) == Count(s, c) + Count(t, c)
  {
    if s == [] {
      assert s + t == t;
    } else {
      assert (s + t)[1..] == s[1..] + t;
      CountConcat(s[1..], t, c);
    }
  }

  /** Events of class `c` only in the middle part: the count is the middle part's count. */
  lemma CountMiddle(a: seq<Event>, b: seq<Event>, m: seq<Event>, c: Class)
    requires NoneIn(a, c) && NoneIn(b, c)
    ensures Count(a + (m + b), c) == Count(m, c)
  {
    CountNone(a, c);
    CountNone(b, c);
    CountConcat(m, b, c);
    CountConcat(a, m + b, c);
  }

  /** Every event of class `p` comes strictly before every event of class `q`. */
  predicate AllBefore(t: seq<Event>, p: Class, q: Class)
  {
    forall i, j :: 0 <= i < |t| && 0 <= j < |t| && Is(p, t[i]) && Is(q, t[j]) ==> i < j
  }

  /** No event of `t` is of class `c`. */
  predicate NoneIn(t: seq<Event>, c: Class)
  {
    forall i :: 0 <= i < |t| ==> !Is(c, t[i])
  }

  lemma NoneInConcat(s: seq<Event>, t: seq<Event>, c: Class)
    requires NoneIn(s, c) && NoneIn(t, c)
    ensures NoneIn(s + t, c)
  {
    forall i | 0 <= i < |s + t|
      ensures !Is(c, (s + t)[i])
    {
      if i < |s| {
        assert (s + t)[i] == s[i];
      } else {
        assert (s + t)[i] == t[i - |s|];
      }
    }
  }

  /** Splitting a trace where the `q` events have not started and the `p` events are over. */
  lemma AllBeforeConcat(s: seq<Event>, t: seq<Event>, p: Class, q: Class)
    requires NoneIn(s, q) && NoneIn(t, p)
    ensures AllBefore(s + t, p, q)
  {
  }

  /** Prefixing events outside `q` keeps every `p` event before every `q` event. */
  lemma AllBeforePrepend(s: seq<Event>, t: seq<Event>, p: Class, q: Class)
    requires NoneIn(s, q) && AllBefore(t, p, q)
    ensures AllBefore(s + t, p, q)
  {
    forall i, j | 0 <= i < |s + t| && 0 <= j < |s + t| && Is(p, (s + t)[i]) && Is(q, (s + t)[j])
      ensures i < j
    {
      if i >= |s| && j >= |s| {
        assert (s + t)[i] == t[i - |s|] && (s + t)[j] == t[j - |s|];
      }
    }
  }

  /** Appending events outside `p` keeps every `p` event before every `q` event. */
  lemma AllBeforeAppend(s: seq<Event>, t: seq<Event>, p: Class, q: Class)
    requires AllBefore(s, p, q) && NoneIn(t, p)
    ensures AllBefore(s + t, p, q)
  {
    forall i, j | 0 <= i < |s + t| && 0 <= j < |s + t| && Is(p, (s + t)[i]) && Is(q, (s + t)[j])
      ensures i < j
    {
      if i < |s| && j < |s| {
        assert (s + t)[i] == s[i] && (s + t)[j] == s[j];
      }
    }
  }

  /** Every `q` event is also a `p` event, so a trace free of `p` events is free of `q` events. */
  lemma NoneInWeaken(t: seq<Event>, p: Class, q: Class)
    requires NoneIn(t, p)
    requires forall e :: Is(q, e) ==> Is(p, e)
    ensures NoneIn(t, q)
  {
  }

  /** No event of the class means a count of zero, and conversely. */
  lemma {:induction false} CountNone(t: seq<Event>, c: Class)
    ensures Count(t, c) == 0 <==> NoneIn(t, c)
  {
    if t != [] {
      CountNone(t[1..], c);
      assert forall i :: 0 < i < |t| ==> t[i] == t[1..][i - 1];
    }
  }

  /** The part of the library's state that the engine's bracketing discipline is about. */
  datatype Binding = Binding(program: int, vao: int, enabled: set<int>)

  /** How one call changes the binding state; every other call leaves it alone. */
  function Apply(b: Binding, e: Event): Binding
  {
    match e
    case UseProgram(p) => b.(program := p)
    case BindVertexArray(v) => b.(vao := v)
    case EnableVertexAttribArray(i) => b.(enabled := b.enabled + {i})
    case DisableVertexAttribArray(i) => b.(enabled := b.enabled - {i})
    case _ => b
  }

  /** The binding state after the calls of `t`, in order, starting from `b`. */
  function Run(b: Binding, t: seq<Event>): Binding
    decreases |t|
  {
    if t == [] then b else Run(Apply(b, t[0]), t[1..])
  }

  lemma {:induction false} RunConcat(b: Binding, s: seq<Event>, t: seq<Event>)
    ensures Run(b, s + t) == Run(Run(b, s), t)
    decreases |s|
  {
    if s == [] {
      assert s + t == t;
    } else {
      assert (s + t)[1..] == s[1..] + t;
      RunConcat(Apply(b, s[0]), s[1..], t);
    }
  }

  /** Two calls in a row, one after the other. */
  lemma RunPair(b: Binding, e1: Event, e2: Event)
    ensures Run(b, [e1, e2]) == Apply(Apply(b, e1), e2)
  {
    assert [e1, e2][1..] == [e2];
    assert Run(b, [e1, e2]) == Run(Apply(b, e1), [e2]);
    assert [e2][1..] == [];
    assert Run(Apply(b, e1), [e2]) == Run(Apply(Apply(b, e1), e2), []);
  }

  /** Calls that touch no binding leave the binding state as it was. */
  lemma {:induction false} RunUntouched(b: Binding, t: seq<Event>)
    requires NoneIn(t, BindingCall)
    ensures Run(b, t) == b
    decreases |t|
  {
    if t != [] {
      assert NoneIn(t[1..], BindingCall);
      RunUntouched(Apply(b, t[0]), t[1..]);
    }
  }

  /** Reference meaning of the program binding: the last glUseProgram wins. */
  function BoundProgram(t: seq<Event>, start: int): int
  {
    if t == [] then start
    else if t[|t| - 1].UseProgram? then t[|t| - 1].program
    else BoundProgram(t[..|t| - 1], start)
  }

  /** Reference meaning of the vertex-array binding: the last glBindVertexArray wins. */
  function BoundVao(t: seq<Event>, start: int): int
  {
    if t == [] then start
    else if t[|t| - 1].BindVertexArray? then t[|t| - 1].vao
    else BoundVao(t[..|t| - 1], start)
  }

  /** Reference meaning of an attribute slot: the last enable or disable of that slot wins. */
  function SlotEnabled(t: seq<Event>, slot: int, start: bool): bool
  {
    if t == [] then start
    else if t[|t| - 1] == EnableVertexAttribArray(slot) then true
    else if t[|t| - 1] == DisableVertexAttribArray(slot) then false
    else SlotEnabled(t[..|t| - 1], slot, start)
  }

  /** Without a glUseProgram call the program binding is whatever it was. */
  lemma {:induction false} BoundProgramUntouched(t: seq<Event>, start: int)
    requires NoneIn(t, ProgramBind)
    ensures BoundProgram(t, start) == start
    decreases |t|
  {
    if t != [] {
      assert NoneIn(t[..|t| - 1], ProgramBind);
      BoundProgramUntouched(t[..|t| - 1], start);
    }
  }

  /** Interpreting a trace call by call agrees with "the last call of each kind wins". */
  lemma {:induction false} RunIsLastBinding(b: Binding, t: seq<Event>)
    ensures Run(b, t).program == BoundProgram(t, b.program)
    ensures Run(b, t).vao == BoundVao(t, b.vao)
    ensures forall slot :: slot in Run(b, t).enabled <==> SlotEnabled(t, slot, slot in b.enabled)
    decreases |t|
  {
    if t != [] {
      var init, e := t[..|t| - 1], t[|t| - 1];
      assert t == init + [e];
      RunConcat(b, init, [e]);
      assert Run(Run(b, init), [e]) == Apply(Run(b, init), e);
      RunIsLastBinding(b, init);
    }
  }
}

=== FILE: key_listener.dfy ===
/**
  KeyListener: the pressed/released table filled in by the GLFW key callback. The process-wide
  singleton becomes an explicit `KeyTable` value threaded through pure transitions.
 */
module KeyListener {
  import opened GlEvents

  /** Size of the `keyPressed` table. */
  const KeyCount: nat := 350

  /** One flag per key code 0..349; `true` means held down. */
  type KeyTable = t: seq<bool> | |t| == KeyCount witness seq(350, _ => false)

  /** A fresh listener: a newly allocated Java `boolean[350]`, all entries false. */
  function Initial(): (t: KeyTable)
    ensures forall k :: 0 <= k < KeyCount ==> !t[k]
  {
    seq(KeyCount, _ => false)
  }

  /**
    The GLFW key callback. A press or release indexes the table without a bounds check, so for
    those two actions the key code must lie inside the table; any other action reads nothing,
    whatever the key. Window, scancode and modifiers are ignored.
   */
  function KeyCallback(t: KeyTable, key: int, action: int): (r: KeyTable)
    requires action == ActionPress || action == ActionRelease ==> 0 <= key < KeyCount
    ensures action == ActionPress ==> r[key]
    ensures action == ActionRelease ==> !r[key]
    ensures action != ActionPress && action != ActionRelease ==> r == t
    ensures forall k :: 0 <= k < KeyCount && k != key ==> r[k] == t[k]
  {
    if action == ActionPress then t[key := true]
    else if action == ActionRelease then t[key := false]
    else t
  }

  /** Whether `keyCode` is held; like the source, only defined inside the table. */
  function IsKeyPressed(t: KeyTable, keyCode: int): (r: bool)
    requires 0 <= keyCode < KeyCount
    ensures r <==> t[keyCode]
  {
    t[keyCode]
  }

  /** One invocation of the key callback. */
  datatype KeyEvent = KeyEvent(key: int, action: int)

  /** The callback can take this event: a press or release names a key inside the table. */
  predicate Deliverable(e: KeyEvent)
  {
    e.action == ActionPress || e.action == ActionRelease ==> 0 <= e.key < KeyCount
  }

  predicate AllDeliverable(evs: seq<KeyEvent>)
  {
    forall i :: 0 <= i < |evs| ==> Deliverable(evs[i])
  }

  /** The table after delivering `evs` in order. */
  function Replay(t: KeyTable, evs: seq<KeyEvent>): KeyTable
    requires AllDeliverable(evs)
    decreases |evs|
  {
    if evs == [] then t else Replay(KeyCallback(t, evs[0].key, evs[0].action), evs[1..])
  }

  /**
    Reference meaning of the table: a key is held exactly when the last press or release
    delivered for it was a press; with none, it keeps its starting value.
   */
  function LastPressOrRelease(evs: seq<KeyEvent>, k: int, start: bool): bool
    decreases |evs|
  {
    if evs == [] then start
    else
      var e := evs[|evs| - 1];
      if e.key == k && e.action == ActionPress then true
      else if e.key == k && e.action == ActionRelease then false
      else LastPressOrRelease(evs[..|evs| - 1], k, start)
  }

  lemma {:induction false} ReplaySnoc(t: KeyTable, evs: seq<KeyEvent>, e: KeyEvent)
    requires AllDeliverable(evs) && Deliverable(e)
    ensures AllDeliverable(evs + [e])
    ensures Replay(t, evs + [e]) == KeyCallback(Replay(t, evs), e.key, e.action)
    decreases |evs|
  {
    if evs == [] {
      assert evs + [e] == [e];
    } else {
      assert (evs + [e])[1..] == evs[1..] + [e];
      ReplaySnoc(KeyCallback(t, evs[0].key, evs[0].action), evs[1..], e);
    }
  }

  /** Replaying any in-range event sequence agrees, key by key, with the reference meaning. */
  lemma {:induction false} ReplayIsLastPressOrRelease(t: KeyTable, evs: seq<KeyEvent>, k: int)
    requires AllDeliverable(evs) && 0 <= k < KeyCount
    ensures Replay(t, evs)[k] == LastPressOrRelease(evs, k, t[k])
    decreases |evs|
  {
    if evs != [] {
      var init, e := evs[..|evs| - 1], evs[|evs| - 1];
      assert evs == init + [e];
      assert AllDeliverable(init);
      ReplaySnoc(t, init, e);
      ReplayIsLastPressOrRelease(t, init, k);
    }
  }

  /** What `isKeyPressed` reports after any deliverable callbacks: the last press or release of that key. */
  lemma IsKeyPressedAfterReplay(t: KeyTable, evs: seq<KeyEvent>, k: int)
    requires AllDeliverable(evs) && 0 <= k < KeyCount
    ensures IsKeyPressed(Replay(t, evs), k) == LastPressOrRelease(evs, k, IsKeyPressed(t, k))
  {
    ReplayIsLastPressOrRelease(t, evs, k);
  }

  /** A repeat changes nothing, even for a key code outside the table such as GLFW_KEY_UNKNOWN (-1). */
  lemma RepeatIsNoOp(t: KeyTable, key: int)
    ensures KeyCallback(t, key, ActionRepeat) == t
    ensures KeyCallback(t, -1, ActionRepeat) == t
  {
  }

  /** Pressing then releasing key 65 (GLFW_KEY_A) reports it held, then released; no other key moves. */
  lemma PressThenRelease()
    ensures IsKeyPressed(KeyCallback(Initial(), 65, ActionPress), 65)
    ensures !IsKeyPressed(KeyCallback(KeyCallback(Initial(), 65, ActionPress), 65, ActionRelease), 65)
    ensures forall k :: 0 <= k < KeyCount ==>
              !KeyCallback(KeyCallback(Initial(), 65, ActionPress), 65, ActionRelease)[k]
  {
  }
}

=== FILE: level_editor_scene.dfy ===
/**
  LevelEditorScene: one quad (four interleaved vertices, two triangles), uploaded once by
  `Init` and drawn by `Update` inside a bind / enable / draw / disable / unbind bracket.
  The vertex values (±0.5, 0 and 1) are exact in binary floating point, so they are `real`s.
 */
module LevelEditorScene {
  import opened Wrappers
  import opened GlEvents
  import opened Renderer

  /** Position (x, y, z) followed by colour (r, g, b, a). */
  const VertexArray: seq<real> := [
     0.5, -0.5, 0.0,   1.0, 0.0, 0.0, 1.0,  // bottom right (0)
    -0.5,  0.5, 0.0,   0.0, 1.0, 0.0, 1.0,  // top left (1)
     0.5,  0.5, 0.0,   0.0, 0.0, 1.0, 1.0,  // top right (2)
    -0.5, -0.5, 0.0,   1.0, 1.0, 0.0, 1.0   // bottom left (3)
  ]

  /** Two triangles, top right and bottom left. */
  const ElementArray: seq<int> := [2, 1, 0, 0, 1, 3]

  const PositionsSize: int := 3
  const ColorSize: int := 4
  /** Float.BYTES */
  const FloatSizeBytes: int := 4
  const VertexSizeBytes: int := (PositionsSize + ColorSize) * FloatSizeBytes

  const VertexShaderPath: string := "shaders/vertexShader.glsl"
  const FragmentShaderPath: string := "shaders/fragmentShader.glsl"

  datatype Vertex = Vertex(x: real, y: real, z: real, r: real, g: real, b: real, a: real)

  /** Record `i` of an interleaved float array: floats 7i .. 7i+6. */
  function VertexAt(data: seq<real>, i: nat): Vertex
    requires 7 * i + 6 < |data|
  {
    Vertex(data[7 * i], data[7 * i + 1], data[7 * i + 2], data[7 * i + 3],
           data[7 * i + 4], data[7 * i + 5], data[7 * i + 6])
  }

  /** Read an interleaved float array as vertex records. */
  function Decode(data: seq<real>): (vs: seq<Vertex>)
    requires |data| % 7 == 0
    ensures |vs| == |data| / 7
    decreases |data|
  {
    if data == [] then []
    else [Vertex(data[0], data[1], data[2], data[3], data[4], data[5], data[6])] + Decode(data[7..])
  }

  /** Lay vertex records out as an interleaved float array. */
  function Encode(vs: seq<Vertex>): (data: seq<real>)
    ensures |data| == 7 * |vs|
  {
    if vs == [] then []
    else
      var v := vs[0];
      [v.x, v.y, v.z, v.r, v.g, v.b, v.a] + Encode(vs[1..])
  }

  lemma {:induction false} DecodeEncode(vs: seq<Vertex>)
    ensures Decode(Encode(vs)) == vs
  {
    if vs != [] {
      var e := Encode(vs);
      assert e[7..] == Encode(vs[1..]);
      DecodeEncode(vs[1..]);
    }
  }

  lemma {:induction false} EncodeDecode(data: seq<real>)
    requires |data| % 7 == 0
    ensures Encode(Decode(data)) == data
    decreases |data|
  {
    if data != [] {
      var vs := Decode(data);
      assert vs[1..] == Decode(data[7..]);
      EncodeDecode(data[7..]);
      assert data == data[..7] + data[7..];
    }
  }

  /** Vertex `i` of the decoded array is record `i` of the float array. */
  lemma {:induction false} DecodeAt(data: seq<real>, i: nat)
    requires |data| % 7 == 0 && i < |data| / 7
    ensures 7 * i + 6 < |data|
    ensures Decode(data)[i] == VertexAt(data, i)
    decreases i
  {
    if i > 0 {
      var rest := data[7..];
      DecodeAt(rest, i - 1);
      assert Decode(data)[i] == Decode(rest)[i - 1];
    }
  }

  /** One glVertexAttribPointer configuration (float, not normalised). */
  datatype AttributePointer = AttributePointer(index: int, size: int, stride: int, offset: int)

  /** Slot 0 is the position, slot 1 the colour that follows it. */
  function Attributes(): seq<AttributePointer>
  {
    [AttributePointer(0, PositionsSize, VertexSizeBytes, 0),
     AttributePointer(1, ColorSize, VertexSizeBytes, PositionsSize * FloatSizeBytes)]
  }

  /** Component `j` of the attribute in slot `slot` of a vertex record. */
  function Component(v: Vertex, slot: int, j: int): real
  {
    if slot == 0 then (if j == 0 then v.x else if j == 1 then v.y else v.z)
    else (if j == 0 then v.r else if j == 1 then v.g else if j == 2 then v.b else v.a)
  }

  /** The layout is a 28-byte record with the position at byte 0 and the colour at byte 12. */
  lemma LayoutConstants()
    ensures VertexSizeBytes == 28 && VertexSizeBytes == 7 * FloatSizeBytes
    ensures Attributes()[0].offset == 0 && Attributes()[1].offset == 12
    ensures Attributes()[0].size + Attributes()[1].size == 7
  {
  }

  /** Attribute `slot` of record `i` starts at float `7 * i + 3 * slot`. */
  lemma AttributeByte(i: nat, slot: nat)
    requires slot < |Attributes()|
    ensures i * Attributes()[slot].stride + Attributes()[slot].offset == 4 * (7 * i + 3 * slot)
    ensures Attributes()[slot].size == 3 + slot
  {
    if slot == 0 {
      assert Attributes()[slot] == AttributePointer(0, 3, 28, 0);
    } else {
      assert Attributes()[slot] == AttributePointer(1, 4, 28, 12);
    }
  }

  /** Float `3 * slot + j` of record `i` is component `j` of attribute `slot` of that record. */
  lemma ComponentAt(data: seq<real>, i: nat, slot: nat, j: nat)
    requires 7 * i + 6 < |data| && slot < 2 && j < 3 + slot
    ensures data[7 * i + 3 * slot + j] == Component(VertexAt(data, i), slot, j)
  {
  }

  /**
    The attribute pointers address the right floats: for every vertex and every component of
    either attribute, the float at byte `i * stride + offset` plus the component is that
    component of the decoded vertex.
   */
  lemma LayoutAddressesComponents(data: seq<real>, i: nat, slot: nat, j: nat)
    requires |data| % 7 == 0 && i < |data| / 7
    requires slot < |Attributes()| && j < Attributes()[slot].size
    ensures var p := Attributes()[slot];
            var byte := i * p.stride + p.offset;
            && byte % FloatSizeBytes == 0
            && 0 <= byte / FloatSizeBytes + j < |data|
            && data[byte / FloatSizeBytes + j] == Component(Decode(data)[i], slot, j)
  {
    var p := Attributes()[slot];
    var byte := i * p.stride + p.offset;
    AttributeByte(i, slot);
    assert byte / FloatSizeBytes == 7 * i + 3 * slot;
    DecodeAt(data, i);
    ComponentAt(data, i, slot, j);
    assert data[byte / FloatSizeBytes + j] == Component(Decode(data)[i], slot, j);
  }

  /** Twice the signed area of the triangle (a, b, c) in the xy-plane: positive when counter-clockwise. */
  function Cross(a: Vertex, b: Vertex, c: Vertex): real
  {
    (b.x - a.x) * (c.y - a.y) - (b.y - a.y) * (c.x - a.x)
  }

  /** Every index names a vertex of `vs`. */
  predicate IndicesInRange(elements: seq<int>, vertexCount: int)
  {
    forall k :: 0 <= k < |elements| ==> 0 <= elements[k] < vertexCount
  }

  /** Every triangle of the list winds counter-clockwise. */
  predicate CounterClockwise(vs: seq<Vertex>, elements: seq<int>)
    requires IndicesInRange(elements, |vs|) && |elements| % 3 == 0
  {
    forall t :: 0 <= t < |elements| / 3 ==>
      Cross(vs[elements[3 * t]], vs[elements[3 * t + 1]], vs[elements[3 * t + 2]]) > 0.0
  }

  /** Top right, top left, bottom right. */
  lemma FirstTriangleWinds()
    ensures Cross(VertexAt(VertexArray, 2), VertexAt(VertexArray, 1), VertexAt(VertexArray, 0)) > 0.0
  {
  }

  /** Bottom right, top left, bottom left. */
  lemma SecondTriangleWinds()
    ensures Cross(VertexAt(VertexArray, 0), VertexAt(VertexArray, 1), VertexAt(VertexArray, 3)) > 0.0
  {
  }

  /** Four vertices equal to the records of the vertex array wind both triangles counter-clockwise. */
  lemma QuadWinds(vs: seq<Vertex>)
    requires |vs| == 4
    requires vs[0] == VertexAt(VertexArray, 0) && vs[1] == VertexAt(VertexArray, 1)
    requires vs[2] == VertexAt(VertexArray, 2) && vs[3] == VertexAt(VertexArray, 3)
    ensures IndicesInRange(ElementArray, |vs|) && |ElementArray| == 6
    ensures CounterClockwise(vs, ElementArray)
  {
    forall t | 0 <= t < |ElementArray| / 3
      ensures Cross(vs[ElementArray[3 * t]], vs[ElementArray[3 * t + 1]], vs[ElementArray[3 * t + 2]]) > 0.0
    {
      if t == 0 {
        assert ElementArray[0] == 2 && ElementArray[1] == 1 && ElementArray[2] == 0;
        FirstTriangleWinds();
      } else {
        assert t == 1;
        assert ElementArray[3] == 0 && ElementArray[4] == 1 && ElementArray[5] == 3;
        SecondTriangleWinds();
      }
    }
  }

  /** The quad: 28 floats, 4 vertices, 6 in-range indices forming 2 counter-clockwise triangles. */
  lemma QuadGeometry()
    ensures |VertexArray| == 4 * 7 && |Decode(VertexArray)| == 4
    ensures |ElementArray| == 6 && IndicesInRange(ElementArray, |VertexArray| / 7)
    ensures CounterClockwise(Decode(VertexArray), ElementArray)
  {
    assert |VertexArray| == 28;
    DecodeAt(VertexArray, 0);
    DecodeAt(VertexArray, 1);
    DecodeAt(VertexArray, 2);
    DecodeAt(VertexArray, 3);
    QuadWinds(Decode(VertexArray));
  }

  /** The scene's fields: the shader (null until `init`) and the three object names (0 until `init`). */
  datatype Scene = Scene(shader: Option<Shader>, vao: int, vbo: int, ebo: int)

  /** A newly constructed scene. */
  function Fresh(): (s: Scene)
    ensures s.shader.None? && s.vao == 0 && s.vbo == 0 && s.ebo == 0
    ensures !Ready(s)
  {
    Scene(None, 0, 0, 0)
  }

  /** A scene whose `update` can run: `init` got as far as storing the shader. */
  predicate Ready(s: Scene)
  {
    s.shader.Some?
  }

  /** What the library answers during `init`. */
  datatype SceneDevice = SceneDevice(compile: CompileDevice, vao: int, vbo: int, ebo: int)

  /** Create and fill the vertex array, vertex buffer and element buffer. */
  function BufferCalls(dev: SceneDevice): seq<Event>
  {
    [GenVertexArray(dev.vao), BindVertexArray(dev.vao),
     GenBuffer(dev.vbo), BindBuffer(ArrayBuffer, dev.vbo), BufferData(ArrayBuffer, |VertexArray|),
     GenBuffer(dev.ebo), BindBuffer(ElementArrayBuffer, dev.ebo), BufferData(ElementArrayBuffer, |ElementArray|)]
  }

  /** Point and enable both attribute slots. */
  function AttributeCalls(): seq<Event>
  {
    var p := Attributes()[0];
    var c := Attributes()[1];
    [VertexAttribPointer(p.index, p.size, p.stride, p.offset), EnableVertexAttribArray(p.index),
     VertexAttribPointer(c.index, c.size, c.stride, c.offset), EnableVertexAttribArray(c.index)]
  }

  /** Whether `init` runs to the end for these answers. */
  predicate InitSucceeds(load: string -> Option<string>, dev: SceneDevice)
  {
    && load(VertexShaderPath).Some? && load(FragmentShaderPath).Some?
    && dev.compile.vertexCompiles && dev.compile.fragmentCompiles && dev.compile.links
  }

  /**
    `init`: build and compile the shader, then create and fill the buffers and configure the
    two attributes. A failed shader step stops here, with the fields assigned so far.
   */
  function Init(s: Scene, load: string -> Option<string>, dev: SceneDevice): (r: Outcome<Scene>)
    ensures r.fault.None? <==> InitSucceeds(load, dev)
    ensures r.fault.None? ==>
              && Ready(r.state) && !r.state.shader.value.beingUsed
              && r.state.shader.value.programId == dev.compile.program
              && r.state.vao == dev.vao && r.state.vbo == dev.vbo && r.state.ebo == dev.ebo
    ensures r.fault.None? ==>
              r.state.shader == Some(Shader(VertexShaderPath, FragmentShaderPath,
                                            load(VertexShaderPath).value, load(FragmentShaderPath).value,
                                            dev.compile.program, false))
    ensures r.fault.Some? ==> r.state.vao == s.vao && r.state.vbo == s.vbo && r.state.ebo == s.ebo
    ensures r.fault.Some? ==> !r.fault.value.UnknownScene?
    ensures r.fault.Some? && !r.fault.value.MissingShaderSource? ==>
              && load(VertexShaderPath).Some? && load(FragmentShaderPath).Some? && r.state.shader.Some?
              && r.state.shader.value.vertexPath == VertexShaderPath
              && r.state.shader.value.fragmentPath == FragmentShaderPath
              && r.state.shader.value.vertexSource == load(VertexShaderPath).value
              && r.state.shader.value.fragmentSource == load(FragmentShaderPath).value
              && r.state.shader.value.programId == (if r.fault.value.LinkFailed? then dev.compile.program else 0)
              && !r.state.shader.value.beingUsed
    ensures (load(VertexShaderPath).None? || load(FragmentShaderPath).None?) ==>
              r.state == s && r.trace == [] && r.fault == Some(MissingShaderSource(VertexShaderPath, FragmentShaderPath))
  {
    match New(VertexShaderPath, FragmentShaderPath, load)
    case Failure(f) => Outcome(s, [], Some(f))
    case Success(shader) =>
      var c := Compile(shader, dev.compile);
      if c.fault.Some? then Outcome(s.(shader := Some(c.state)), c.trace, c.fault)
      else Outcome(Scene(Some(c.state), dev.vao, dev.vbo, dev.ebo), c.trace + (BufferCalls(dev) + AttributeCalls()), None)
  }

  /** The calls of a successful `init`: the compile calls, then the buffer and attribute set-up. */
  lemma InitTrace(s: Scene, load: string -> Option<string>, dev: SceneDevice)
    ensures var n := New(VertexShaderPath, FragmentShaderPath, load);
            && (n.Failure? ==> Init(s, load, dev).trace == [])
            && (n.Success? && Compile(n.value, dev.compile).fault.Some? ==>
                  Init(s, load, dev).trace == Compile(n.value, dev.compile).trace)
            && (n.Success? && Compile(n.value, dev.compile).fault.None? ==>
                  Init(s, load, dev).trace == Compile(n.value, dev.compile).trace + (BufferCalls(dev) + AttributeCalls()))
  {
  }

  lemma SetupAvoid(dev: SceneDevice)
    ensures NoneIn(BufferCalls(dev) + AttributeCalls(), CompileCall)
    ensures GenVertexArray(dev.vao) in BufferCalls(dev) + AttributeCalls()
  {
    assert NoneIn(BufferCalls(dev), CompileCall) && NoneIn(AttributeCalls(), CompileCall);
    NoneInConcat(BufferCalls(dev), AttributeCalls(), CompileCall);
  }

  lemma SetupIsNotCompileWork()
    ensures forall e :: Is(BufferSetup, e) ==> Is(OtherThanCompile, e)
    ensures forall p: int, e: Event :: Is(LinkOfOther(p), e) ==> Is(CompileCall, e)
    ensures forall e :: Is(ProgramBind, e) ==> Is(OtherThanCompile, e)
  {
  }

  /** The shader is fully compiled and linked before any vertex array or buffer is created. */
  lemma InitCompilesBeforeBuffers(s: Scene, load: string -> Option<string>, dev: SceneDevice)
    ensures AllBefore(Init(s, load, dev).trace, CompileCall, BufferSetup)
  {
    InitTrace(s, load, dev);
    var n := New(VertexShaderPath, FragmentShaderPath, load);
    if n.Success? {
      var c := Compile(n.value, dev.compile);
      CompileMakesOnlyCompileCalls(n.value, dev.compile);
      SetupIsNotCompileWork();
      NoneInWeaken(c.trace, OtherThanCompile, BufferSetup);
      if c.fault.None? {
        SetupAvoid(dev);
        AllBeforeConcat(c.trace, BufferCalls(dev) + AttributeCalls(), CompileCall, BufferSetup);
      }
    }
  }

  /** A successful `init` links the program it created, and only that one, then creates the vertex array. */
  lemma InitLinksOwnProgramAndCreatesVao(s: Scene, load: string -> Option<string>, dev: SceneDevice)
    requires InitSucceeds(load, dev)
    ensures LinkProgram(dev.compile.program) in Init(s, load, dev).trace
    ensures GenVertexArray(dev.vao) in Init(s, load, dev).trace
    ensures NoneIn(Init(s, load, dev).trace, LinkOfOther(dev.compile.program))
  {
    var shader := New(VertexShaderPath, FragmentShaderPath, load).value;
    var c := Compile(shader, dev.compile);
    var rest := BufferCalls(dev) + AttributeCalls();
    InitTrace(s, load, dev);
    CompileLinksOwnProgram(shader, dev.compile);
    SetupAvoid(dev);
    SetupIsNotCompileWork();
    NoneInWeaken(rest, CompileCall, LinkOfOther(dev.compile.program));
    NoneInConcat(c.trace, rest, LinkOfOther(dev.compile.program));
  }

  /** The set-up calls with every size, stride and offset worked out. */
  lemma SetupSpelledOut(dev: SceneDevice)
    ensures BufferCalls(dev) + AttributeCalls() ==
              [GenVertexArray(dev.vao), BindVertexArray(dev.vao),
               GenBuffer(dev.vbo), BindBuffer(ArrayBuffer, dev.vbo), BufferData(ArrayBuffer, 28),
               GenBuffer(dev.ebo), BindBuffer(ElementArrayBuffer, dev.ebo), BufferData(ElementArrayBuffer, 6),
               VertexAttribPointer(0, 3, 28, 0), EnableVertexAttribArray(0),
               VertexAttribPointer(1, 4, 28, 12), EnableVertexAttribArray(1)]
  {
    assert |VertexArray| == 28;
  }

  /**
    A successful `init` ends with the buffer uploads and the attribute layout: 28 floats of
    vertices and 6 indices, position as 3 floats at byte 0 and colour as 4 floats at byte 12,
    both with a 28-byte stride, each pointer set before its slot is enabled.
   */
  lemma InitConfiguresLayout(s: Scene, load: string -> Option<string>, dev: SceneDevice)
    requires InitSucceeds(load, dev)
    ensures var t := Init(s, load, dev).trace;
            && |t| >= 12
            && t[|t| - 12..] ==
                 [GenVertexArray(dev.vao), BindVertexArray(dev.vao),
                  GenBuffer(dev.vbo), BindBuffer(ArrayBuffer, dev.vbo), BufferData(ArrayBuffer, 28),
                  GenBuffer(dev.ebo), BindBuffer(ElementArrayBuffer, dev.ebo), BufferData(ElementArrayBuffer, 6),
                  VertexAttribPointer(0, 3, 28, 0), EnableVertexAttribArray(0),
                  VertexAttribPointer(1, 4, 28, 12), EnableVertexAttribArray(1)]
  {
    InitTrace(s, load, dev);
    SetupSpelledOut(dev);
    var c := Compile(New(VertexShaderPath, FragmentShaderPath, load).value, dev.compile);
    var t := Init(s, load, dev).trace;
    assert t == c.trace + (BufferCalls(dev) + AttributeCalls());
    assert t[|t| - 12..] == BufferCalls(dev) + AttributeCalls();
  }

  /** The buffer calls bind the scene's vertex array and nothing else. */
  lemma BufferCallsBindVao(dev: SceneDevice, x: Binding)
    ensures Run(x, BufferCalls(dev)) == x.(vao := dev.vao)
  {
    var bc := BufferCalls(dev);
    var head, rest := [GenVertexArray(dev.vao), BindVertexArray(dev.vao)], bc[2..];
    assert bc == head + rest;
    RunConcat(x, head, rest);
    RunPair(x, head[0], head[1]);
    UploadsBindNothing(dev);
    RunUntouched(x.(vao := dev.vao), rest);
  }

  /** Generating, binding and filling the two buffers touches no program, vertex array or slot. */
  lemma UploadsBindNothing(dev: SceneDevice)
    ensures NoneIn(BufferCalls(dev)[2..], BindingCall)
  {
    var rest := BufferCalls(dev)[2..];
    forall i | 0 <= i < |rest|
      ensures !Is(BindingCall, rest[i])
    {
      assert rest[i].GenBuffer? || rest[i].BindBuffer? || rest[i].BufferData?;
    }
  }

  /** The attribute calls enable slots 0 and 1 and touch nothing else. */
  lemma AttributeCallsEnable(y: Binding)
    ensures var after := Run(y, AttributeCalls());
            after.program == y.program && after.vao == y.vao && {0, 1} <= after.enabled
  {
    var p0, e0 := VertexAttribPointer(0, 3, 28, 0), EnableVertexAttribArray(0);
    var p1, e1 := VertexAttribPointer(1, 4, 28, 12), EnableVertexAttribArray(1);
    AttributeCallsSpelledOut();
    RunConcat(y, [p0, e0], [p1, e1]);
    RunPair(y, p0, e0);
    var z := Run(y, [p0, e0]);
    assert z.program == y.program && z.vao == y.vao && 0 in z.enabled;
    RunPair(z, p1, e1);
  }

  /** The attribute calls as two pointer-then-enable pairs. */
  lemma AttributeCallsSpelledOut()
    ensures AttributeCalls() ==
              [VertexAttribPointer(0, 3, 28, 0), EnableVertexAttribArray(0)] +
              [VertexAttribPointer(1, 4, 28, 12), EnableVertexAttribArray(1)]
  {
  }

  /** The set-up calls bind the vertex array and enable both slots, and bind no program. */
  lemma SetupBinds(dev: SceneDevice, x: Binding)
    ensures var after := Run(x, BufferCalls(dev) + AttributeCalls());
            after.program == x.program && after.vao == dev.vao && {0, 1} <= after.enabled
  {
    RunConcat(x, BufferCalls(dev), AttributeCalls());
    BufferCallsBindVao(dev, x);
    AttributeCallsEnable(x.(vao := dev.vao));
  }

  /**
    After a successful `init`, whatever was bound before: the scene's vertex array is bound,
    slots 0 and 1 are enabled, and the program binding is as it was, since `init` never uses it.
   */
  lemma InitLeavesLayoutBound(s: Scene, load: string -> Option<string>, dev: SceneDevice, b: Binding)
    requires InitSucceeds(load, dev)
    ensures var after := Run(b, Init(s, load, dev).trace);
            after.program == b.program && after.vao == dev.vao && {0, 1} <= after.enabled
  {
    InitTrace(s, load, dev);
    var n := New(VertexShaderPath, FragmentShaderPath, load).value;
    var c := Compile(n, dev.compile);
    CompileMakesOnlyCompileCalls(n, dev.compile);
    SetupIsNotCompileWork();
    NoneInWeaken(c.trace, OtherThanCompile, ProgramBind);
    RunIsLastBinding(b, c.trace);
    BoundProgramUntouched(c.trace, b.program);
    RunConcat(b, c.trace, BufferCalls(dev) + AttributeCalls());
    SetupBinds(dev, Run(b, c.trace));
  }

  /** `init` makes no window-level call: no poll, clear, swap, and no call into a scene. */
  lemma InitMakesNoWindowCalls(s: Scene, load: string -> Option<string>, dev: SceneDevice)
    ensures NoneIn(Init(s, load, dev).trace, WindowCall)
  {
    InitTrace(s, load, dev);
    var n := New(VertexShaderPath, FragmentShaderPath, load);
    if n.Success? {
      var c := Compile(n.value, dev.compile);
      CompileMakesOnlyCompileCalls(n.value, dev.compile);
      WindowCallClasses();
      NoneInWeaken(c.trace, OtherThanCompile, WindowCall);
      if c.fault.None? {
        assert NoneIn(BufferCalls(dev), WindowCall) && NoneIn(AttributeCalls(), WindowCall);
        NoneInConcat(BufferCalls(dev), AttributeCalls(), WindowCall);
        NoneInConcat(c.trace, BufferCalls(dev) + AttributeCalls(), WindowCall);
      }
    }
  }

  /** Bind the vertex array, enable both slots, draw every index, disable, unbind. */
  function DrawCalls(s: Scene): seq<Event>
  {
    [BindVertexArray(s.vao), EnableVertexAttribArray(0), EnableVertexAttribArray(1),
     DrawTriangles(|ElementArray|),
     DisableVertexAttribArray(0), DisableVertexAttribArray(1), BindVertexArray(0)]
  }

  /** `update`: use the shader, draw the quad, detach the shader. `dt` is not read. */
  function Update(s: Scene): (r: Step<Scene>)
    requires Ready(s)
    ensures Ready(r.state)
    ensures r.state == s.(shader := Some(s.shader.value.(beingUsed := false)))
  {
    var u := Use(s.shader.value);
    var d := Detach(u.state);
    Step(s.(shader := Some(d.state)), u.trace + (DrawCalls(s) + d.trace))
  }

  /** Each update issues exactly one draw, over all six indices. */
  lemma UpdateDrawsOnce(s: Scene)
    requires Ready(s)
    ensures Count(Update(s).trace, DrawCall) == 1
    ensures DrawTriangles(|ElementArray|) in Update(s).trace && |ElementArray| == 6
  {
    var u := Use(s.shader.value);
    var d := Detach(u.state);
    BindCallsDoNotDraw(s);
    DrawCallsDrawOnce(s);
    CountMiddle(u.trace, d.trace, DrawCalls(s), DrawCall);
    assert DrawCalls(s)[3] == DrawTriangles(|ElementArray|);
  }

  lemma BindCallsDoNotDraw(s: Scene)
    requires Ready(s)
    ensures NoneIn(Use(s.shader.value).trace, DrawCall) && NoneIn(Use(s.shader.value).trace, WindowCall)
    ensures NoneIn(Detach(Use(s.shader.value).state).trace, DrawCall)
    ensures NoneIn(Detach(Use(s.shader.value).state).trace, WindowCall)
    ensures Update(s).trace == Use(s.shader.value).trace + (DrawCalls(s) + Detach(Use(s.shader.value).state).trace)
  {
  }

  lemma DrawCallsDrawOnce(s: Scene)
    ensures Count(DrawCalls(s), DrawCall) == 1
  {
    var draw := DrawCalls(s);
    assert draw == draw[..3] + ([draw[3]] + draw[4..]);
    assert NoneIn(draw[..3], DrawCall) && NoneIn(draw[4..], DrawCall);
    CountNone(draw[..3], DrawCall);
    CountNone(draw[4..], DrawCall);
    CountConcat([draw[3]], draw[4..], DrawCall);
    CountConcat(draw[..3], [draw[3]] + draw[4..], DrawCall);
  }

  /** `update` makes no window-level call. */
  lemma UpdateMakesNoWindowCalls(s: Scene)
    requires Ready(s)
    ensures NoneIn(Update(s).trace, WindowCall)
  {
    var u := Use(s.shader.value);
    var d := Detach(u.state);
    BindCallsDoNotDraw(s);
    assert NoneIn(DrawCalls(s), WindowCall);
    NoneInConcat(DrawCalls(s), d.trace, WindowCall);
    NoneInConcat(u.trace, DrawCalls(s) + d.trace, WindowCall);
  }

  /** What the draw bracket leaves behind, starting from any binding. */
  lemma DrawCallsUnbind(s: Scene, b: Binding)
    ensures var after := Run(b, DrawCalls(s));
            after.program == b.program && after.vao == 0 && 0 !in after.enabled && 1 !in after.enabled
  {
    var t := DrawCalls(s);
    RunIsLastBinding(b, t);
    assert t[..6][..5][4] == DisableVertexAttribArray(0);
    assert SlotEnabled(t, 0, 0 in b.enabled) == SlotEnabled(t[..6][..5], 0, 0 in b.enabled);
    assert SlotEnabled(t, 1, 1 in b.enabled) == SlotEnabled(t[..6], 1, 1 in b.enabled);
    assert NoneIn(t, ProgramBind);
    BoundProgramUntouched(t, b.program);
  }

  /** Whatever was bound before, an update leaves no program, no vertex array and no enabled slot 0 or 1. */
  lemma UpdateLeavesNothingBound(s: Scene, b: Binding)
    requires Ready(s)
    ensures var after := Run(b, Update(s).trace);
            after.program == 0 && after.vao == 0 && 0 !in after.enabled && 1 !in after.enabled
  {
    var u := Use(s.shader.value);
    var d := Detach(u.state);
    RunConcat(b, u.trace, DrawCalls(s) + d.trace);
    RunConcat(Run(b, u.trace), DrawCalls(s), d.trace);
    DrawCallsUnbind(s, Run(b, u.trace));
    DetachUnbinds(u.state, Run(Run(b, u.trace), DrawCalls(s)));
  }

  /**
    At the draw, the scene's program and vertex array are bound and both slots are enabled,
    provided the shader's in-use flag was truthful on entry.
   */
  lemma UpdateDrawsWithEverythingBound(s: Scene, b: Binding)
    requires Ready(s) && InSync(s.shader.value, b)
    ensures var t := Update(s).trace;
            forall k :: 0 <= k < |t| && Is(DrawCall, t[k]) ==>
              var at := Run(b, t[..k]);
              at.program == s.shader.value.programId && at.vao == s.vao && {0, 1} <= at.enabled
  {
    var u := Use(s.shader.value);
    UseBinds(s.shader.value, b);
    DrawPrefixBinds(s, Run(b, u.trace));
    UpdateDrawIndex(s);
    RunConcat(b, u.trace, DrawCalls(s)[..3]);
  }

  /** The calls before the draw in the bracket bind the vertex array and enable both slots. */
  lemma DrawPrefixBinds(s: Scene, x: Binding)
    ensures var at := Run(x, DrawCalls(s)[..3]);
            at.program == x.program && at.vao == s.vao && {0, 1} <= at.enabled
  {
    var prefix := DrawCalls(s)[..3];
    RunIsLastBinding(x, prefix);
    assert prefix[..2][1] == EnableVertexAttribArray(0);
    assert SlotEnabled(prefix, 0, 0 in x.enabled) == SlotEnabled(prefix[..2], 0, 0 in x.enabled);
    assert BoundVao(prefix, x.vao) == BoundVao(prefix[..2][..1], x.vao);
    assert NoneIn(prefix, ProgramBind);
    BoundProgramUntouched(prefix, x.program);
  }

  /** The draw of an update sits right after the bind and the three calls that precede it in the bracket. */
  lemma UpdateDrawIndex(s: Scene)
    requires Ready(s)
    ensures var t := Update(s).trace;
            forall k :: 0 <= k < |t| && Is(DrawCall, t[k]) ==>
              t[..k] == Use(s.shader.value).trace + DrawCalls(s)[..3]
  {
    var t := Update(s).trace;
    var u := Use(s.shader.value);
    BindCallsDoNotDraw(s);
    forall k | 0 <= k < |t| && Is(DrawCall, t[k])
      ensures t[..k] == u.trace + DrawCalls(s)[..3]
    {
      assert k == |u.trace| + 3;
    }
  }
}

=== FILE: mouse_listener.dfy ===
/**
  MouseListener: cursor position (current and previous), three button flags, the scroll
  offsets of the current frame and the drag flag. The singleton becomes a `MouseState`
  value; each GLFW callback is a pure transition on it. Coordinates are `real`.
 */
module MouseListener {
  import opened GlEvents

  /** Length of the `mouseButtonPressed` table. */
  const ButtonCount: nat := 3

  type Buttons = b: seq<bool> | |b| == ButtonCount witness [false, false, false]

  datatype MouseState = MouseState(
    scrollX: real, scrollY: real,
    xPos: real, yPos: real,
    lastX: real, lastY: real,
    buttons: Buttons,
    dragging: bool)

  /** At least one of the three tracked buttons is held. */
  predicate AnyButtonHeld(b: Buttons)
  {
    exists i :: 0 <= i < ButtonCount && b[i]
  }

  /** The listener as constructed: everything zero, no button held, not dragging. */
  function Initial(): (m: MouseState)
    ensures m.scrollX == 0.0 && m.scrollY == 0.0
    ensures m.xPos == 0.0 && m.yPos == 0.0 && m.lastX == 0.0 && m.lastY == 0.0
    ensures !AnyButtonHeld(m.buttons) && !m.dragging
  {
    MouseState(0.0, 0.0, 0.0, 0.0, 0.0, 0.0, [false, false, false], false)
  }

  /**
    Cursor moved: the old position becomes the previous one, and dragging is recomputed as
    "some button is held". Buttons and scroll are untouched.
   */
  function MousePosCallback(m: MouseState, x: real, y: real): (r: MouseState)
    ensures r.lastX == m.xPos && r.lastY == m.yPos
    ensures r.xPos == x && r.yPos == y
    ensures r.dragging <==> AnyButtonHeld(m.buttons)
    ensures r.buttons == m.buttons
    ensures r.scrollX == m.scrollX && r.scrollY == m.scrollY
  {
    m.(lastX := m.xPos, lastY := m.yPos, xPos := x, yPos := y,
       dragging := m.buttons[0] || m.buttons[1] || m.buttons[2])
  }

  /**
    Button callback. Only buttons below `ButtonCount` are tracked; the guard is `button < 3`
    with no lower bound, so a negative button on a press or release would fault, and is
    excluded here; any other action leaves the table alone whatever the button. A release of a
    tracked button clears the drag flag even when another button is still held.
   */
  function MouseButtonCallback(m: MouseState, button: int, action: int): (r: MouseState)
    requires action == ActionPress || action == ActionRelease ==> 0 <= button
    ensures button >= ButtonCount || (action != ActionPress && action != ActionRelease) ==> r == m
    ensures button < ButtonCount && action == ActionPress ==>
              r.buttons[button] && r.dragging == m.dragging
    ensures button < ButtonCount && action == ActionRelease ==>
              !r.buttons[button] && !r.dragging
    ensures forall i :: 0 <= i < ButtonCount && i != button ==> r.buttons[i] == m.buttons[i]
    ensures r.(buttons := m.buttons, dragging := m.dragging) == m
  {
    if action == ActionPress then
      if button < ButtonCount then m.(buttons := m.buttons[button := true]) else m
    else if action == ActionRelease then
      if button < ButtonCount then m.(buttons := m.buttons[button := false], dragging := false) else m
    else m
  }

  /** Scroll callback: the offsets are replaced, not accumulated. */
  function MouseScrollCallback(m: MouseState, xOffset: real, yOffset: real): (r: MouseState)
    ensures r.scrollX == xOffset && r.scrollY == yOffset
    ensures r.(scrollX := m.scrollX, scrollY := m.scrollY) == m
  {
    m.(scrollX := xOffset, scrollY := yOffset)
  }

  /** End of frame: scroll is zeroed and the previous position catches up with the current one. */
  function EndFrame(m: MouseState): (r: MouseState)
    ensures r.scrollX == 0.0 && r.scrollY == 0.0
    ensures Dx(r) == 0.0 && Dy(r) == 0.0
    ensures r.xPos == m.xPos && r.yPos == m.yPos
    ensures r.buttons == m.buttons && r.dragging == m.dragging
  {
    m.(scrollX := 0.0, scrollY := 0.0, lastX := m.xPos, lastY := m.yPos)
  }

  /** The getters; the `(float)` narrowing of the source is not modelled. */
  function X(m: MouseState): (r: real)
    ensures r == m.xPos
  {
    m.xPos
  }

  function Y(m: MouseState): (r: real)
    ensures r == m.yPos
  {
    m.yPos
  }

  /** Previous minus current, as getDx computes it: moving right gives a negative delta. */
  function Dx(m: MouseState): (r: real)
    ensures r + m.xPos == m.lastX
    ensures r < 0.0 <==> m.xPos > m.lastX
  {
    m.lastX - m.xPos
  }

  function Dy(m: MouseState): (r: real)
    ensures r + m.yPos == m.lastY
    ensures r < 0.0 <==> m.yPos > m.lastY
  {
    m.lastY - m.yPos
  }

  function ScrollX(m: MouseState): (r: real)
    ensures r == m.scrollX
  {
    m.scrollX
  }

  function ScrollY(m: MouseState): (r: real)
    ensures r == m.scrollY
  {
    m.scrollY
  }

  function IsDragging(m: MouseState): (r: bool)
    ensures r <==> m.dragging
  {
    m.dragging
  }

  /** Whether `button` is held; buttons past the table are never reported held. */
  function MouseButtonDown(m: MouseState, button: int): (r: bool)
    requires 0 <= button
    ensures button >= ButtonCount ==> !r
    ensures button < ButtonCount ==> (r <==> m.buttons[button])
  {
    button < ButtonCount && m.buttons[button]
  }

  /**
    What the getters report after a cursor move: the new position, and as deltas the old
    position minus the new one.
   */
  lemma MoveIsReported(m: MouseState, x: real, y: real)
    ensures var r := MousePosCallback(m, x, y);
            && X(r) == x && Y(r) == y
            && Dx(r) == X(m) - x && Dy(r) == Y(m) - y
            && (IsDragging(r) <==> MouseButtonDown(m, 0) || MouseButtonDown(m, 1) || MouseButtonDown(m, 2))
  {
  }

  /** What the getters report after a scroll: the offsets just delivered. */
  lemma ScrollIsReported(m: MouseState, xOffset: real, yOffset: real)
    ensures ScrollX(MouseScrollCallback(m, xOffset, yOffset)) == xOffset
    ensures ScrollY(MouseScrollCallback(m, xOffset, yOffset)) == yOffset
    ensures Dx(MouseScrollCallback(m, xOffset, yOffset)) == Dx(m)
    ensures Dy(MouseScrollCallback(m, xOffset, yOffset)) == Dy(m)
  {
  }

  /** A button callback with an action other than press or release changes nothing, even for a negative button. */
  lemma OtherActionIsNoOp(m: MouseState, button: int)
    ensures MouseButtonCallback(m, button, ActionRepeat) == m
    ensures MouseButtonCallback(m, -1, ActionRepeat) == m
  {
  }

  /** Ending a frame twice is the same as ending it once. */
  lemma EndFrameIdempotent(m: MouseState)
    ensures EndFrame(EndFrame(m)) == EndFrame(m)
    ensures ScrollX(EndFrame(EndFrame(m))) == 0.0 && ScrollY(EndFrame(EndFrame(m))) == 0.0
  {
  }

  /** A second scroll discards the first. */
  lemma ScrollDoesNotAccumulate(m: MouseState, x1: real, y1: real, x2: real, y2: real)
    ensures MouseScrollCallback(MouseScrollCallback(m, x1, y1), x2, y2) == MouseScrollCallback(m, x2, y2)
  {
  }

  /** Releasing one button while another is held still ends the drag. */
  lemma ReleaseEndsDragWhileOtherHeld(m: MouseState, released: nat, held: nat)
    requires released < ButtonCount && held < ButtonCount && released != held
    requires m.buttons[held] && m.dragging
    ensures var r := MouseButtonCallback(m, released, ActionRelease);
            !IsDragging(r) && MouseButtonDown(r, held)
  {
  }

  /** One invocation of a mouse callback, or the end-of-frame reset. */
  datatype MouseEvent =
    | Move(x: real, y: real)
    | Button(button: int, action: int)
    | Scroll(xOffset: real, yOffset: real)
    | FrameEnd

  /** An event the listener can take without faulting: no negative button is pressed or released. */
  predicate Deliverable(e: MouseEvent)
  {
    e.Button? && (e.action == ActionPress || e.action == ActionRelease) ==> 0 <= e.button
  }

  predicate AllDeliverable(evs: seq<MouseEvent>)
  {
    forall i :: 0 <= i < |evs| ==> Deliverable(evs[i])
  }

  function Deliver(m: MouseState, e: MouseEvent): MouseState
    requires Deliverable(e)
  {
    match e
    case Move(x, y) => MousePosCallback(m, x, y)
    case Button(b, a) => MouseButtonCallback(m, b, a)
    case Scroll(dx, dy) => MouseScrollCallback(m, dx, dy)
    case FrameEnd => EndFrame(m)
  }

  function Replay(m: MouseState, evs: seq<MouseEvent>): MouseState
    requires AllDeliverable(evs)
    decreases |evs|
  {
    if evs == [] then m else Replay(Deliver(m, evs[0]), evs[1..])
  }

  /** The drag flag is only ever set while some button is held. */
  predicate DragNeedsButton(m: MouseState)
  {
    m.dragging ==> AnyButtonHeld(m.buttons)
  }

  lemma DeliverKeepsDragNeedsButton(m: MouseState, e: MouseEvent)
    requires DragNeedsButton(m) && Deliverable(e)
    ensures DragNeedsButton(Deliver(m, e))
  {
    if e.Button? && e.button < ButtonCount && e.action == ActionPress {
      assert Deliver(m, e).buttons[e.button];
    }
  }

  /** Every sequence of callbacks preserves the drag invariant. */
  lemma {:induction false} ReplayKeepsDragNeedsButton(m: MouseState, evs: seq<MouseEvent>)
    requires DragNeedsButton(m) && AllDeliverable(evs)
    ensures DragNeedsButton(Replay(m, evs))
    decreases |evs|
  {
    if evs != [] {
      DeliverKeepsDragNeedsButton(m, evs[0]);
      ReplayKeepsDragNeedsButton(Deliver(m, evs[0]), evs[1..]);
    }
  }

  /** From the listener's initial state, no sequence of callbacks reports a drag with every button up. */
  lemma ReplayFromInitialDragNeedsButton(evs: seq<MouseEvent>)
    requires AllDeliverable(evs)
    ensures IsDragging(Replay(Initial(), evs)) ==> AnyButtonHeld(Replay(Initial(), evs).buttons)
  {
    ReplayKeepsDragNeedsButton(Initial(), evs);
  }
}

=== FILE: shader.dfy ===
/**
  renderer.Shader: a program built from a vertex and a fragment stage. Construction loads
  both sources; `Compile` issues the create / compile / check / attach / link / delete calls;
  `Use` and `Detach` keep the `beingUsed` flag in step with the program binding.
 */
module Renderer {
  import opened Wrappers
  import opened GlEvents

  datatype Shader = Shader(
    vertexPath: string, fragmentPath: string,
    vertexSource: string, fragmentSource: string,
    programId: int,
    beingUsed: bool)

  /**
    Construction. `load` stands for ResourceLoader.loadAsString, which yields null when the
    resource cannot be read. Both sources are loaded before the non-null assertion.
   */
  function New(vertexPath: string, fragmentPath: string, load: string -> Option<string>): (r: Result<Shader, Fault>)
    ensures r.Success? <==> load(vertexPath).Some? && load(fragmentPath).Some?
    ensures r.Success? ==>
              && r.value.vertexPath == vertexPath && r.value.fragmentPath == fragmentPath
              && r.value.vertexSource == load(vertexPath).value
              && r.value.fragmentSource == load(fragmentPath).value
              && r.value.programId == 0 && !r.value.beingUsed
    ensures r.Failure? ==> r.error == MissingShaderSource(vertexPath, fragmentPath)
  {
    var vertexSource := load(vertexPath);
    var fragmentSource := load(fragmentPath);
    if vertexSource.Some? && fragmentSource.Some? then
      Success(Shader(vertexPath, fragmentPath, vertexSource.value, fragmentSource.value, 0, false))
    else
      Failure(MissingShaderSource(vertexPath, fragmentPath))
  }

  /** What the library answers during `compile`: the object names it hands out and the statuses. */
  datatype CompileDevice = CompileDevice(
    vertexShader: int, fragmentShader: int, program: int,
    vertexCompiles: bool, fragmentCompiles: bool, links: bool)

  /** The line printed before the info log when a check fails. */
  function FailureMessage(s: Shader, f: Fault): string
  {
    match f
    case StageCompileFailed(VertexStage) => "ERROR: '" + s.vertexPath + "'\n\tVertex shader compilation failed."
    case StageCompileFailed(FragmentStage) => "ERROR: '" + s.fragmentPath + "'\n\tFragment shader compilation failed."
    case _ => "ERROR: '" + s.vertexPath + "' or '" + s.fragmentPath + "'\n\tLinking of shaders failed."
  }

  /** Create a shader object, hand it its source, compile it and query the compile status. */
  function StageCalls(stage: Stage, id: int, source: string): seq<Event>
  {
    [CreateShader(stage, id), ShaderSource(stage, id, source), CompileShader(stage, id),
     GetShaderParam(stage, id, CompileStatus)]
  }

  /** The error report of a failed stage: log length, message, info log. */
  function StageReport(stage: Stage, id: int, message: string): seq<Event>
  {
    [GetShaderParam(stage, id, InfoLogLength), Log(message), GetShaderInfoLog(stage, id)]
  }

  /** Create the program object and attach both stages to it. */
  function AttachCalls(program: int, vertexShader: int, fragmentShader: int): seq<Event>
  {
    [CreateProgram(program), AttachShader(program, VertexStage, vertexShader),
     AttachShader(program, FragmentStage, fragmentShader)]
  }

  /** Link the program and query the link status. */
  function LinkCalls(program: int): seq<Event>
  {
    [LinkProgram(program), GetProgramParam(program, LinkStatus)]
  }

  function LinkReport(program: int, message: string): seq<Event>
  {
    [GetProgramParam(program, InfoLogLength), Log(message), GetProgramInfoLog(program)]
  }

  /** The stage objects are no longer needed once they are linked into the program. */
  function DeleteCalls(vertexShader: int, fragmentShader: int): seq<Event>
  {
    [DeleteShader(VertexStage, vertexShader), DeleteShader(FragmentStage, fragmentShader)]
  }

  /** The calls after the link status check: the report and stop, or the clean-up. */
  function AfterLinkCheck(s: Shader, d: CompileDevice): seq<Event>
  {
    if !d.links then LinkReport(d.program, FailureMessage(s, LinkFailed))
    else DeleteCalls(d.vertexShader, d.fragmentShader)
  }

  /** The calls after the fragment compile status check. */
  function AfterFragmentCheck(s: Shader, d: CompileDevice): seq<Event>
  {
    if !d.fragmentCompiles then
      StageReport(FragmentStage, d.fragmentShader, FailureMessage(s, StageCompileFailed(FragmentStage)))
    else
      AttachCalls(d.program, d.vertexShader, d.fragmentShader) + (LinkCalls(d.program) + AfterLinkCheck(s, d))
  }

  /** The calls after the vertex compile status check. */
  function AfterVertexCheck(s: Shader, d: CompileDevice): seq<Event>
  {
    if !d.vertexCompiles then
      StageReport(VertexStage, d.vertexShader, FailureMessage(s, StageCompileFailed(VertexStage)))
    else
      StageCalls(FragmentStage, d.fragmentShader, s.fragmentSource) + AfterFragmentCheck(s, d)
  }

  /**
    `compile`. Each failed check prints its report and stops at `assert false`; the program id
    is stored as soon as the program object exists, so a link failure leaves it set.
   */
  function Compile(s: Shader, d: CompileDevice): (r: Outcome<Shader>)
    ensures r.fault.None? <==> d.vertexCompiles && d.fragmentCompiles && d.links
    ensures r.fault == Some(StageCompileFailed(VertexStage)) <==> !d.vertexCompiles
    ensures r.fault == Some(StageCompileFailed(FragmentStage)) <==> d.vertexCompiles && !d.fragmentCompiles
    ensures r.fault == Some(LinkFailed) <==> d.vertexCompiles && d.fragmentCompiles && !d.links
    ensures r.fault.Some? ==> Log(FailureMessage(s, r.fault.value)) in r.trace
    ensures r.fault.None? || r.fault.value.LinkFailed? ==> r.state == s.(programId := d.program)
    ensures r.fault.Some? && !r.fault.value.LinkFailed? ==> r.state == s
  {
    var trace := StageCalls(VertexStage, d.vertexShader, s.vertexSource) + AfterVertexCheck(s, d);
    if !d.vertexCompiles then Outcome(s, trace, Some(StageCompileFailed(VertexStage)))
    else if !d.fragmentCompiles then Outcome(s, trace, Some(StageCompileFailed(FragmentStage)))
    else if !d.links then Outcome(s.(programId := d.program), trace, Some(LinkFailed))
    else Outcome(s.(programId := d.program), trace, None)
  }

  /** The three shapes of a compile trace, one per place where `compile` can stop. */
  lemma CompileTrace(s: Shader, d: CompileDevice)
    ensures var vertex := StageCalls(VertexStage, d.vertexShader, s.vertexSource);
            var fragment := StageCalls(FragmentStage, d.fragmentShader, s.fragmentSource);
            && Compile(s, d).trace == vertex + AfterVertexCheck(s, d)
            && (!d.vertexCompiles ==>
                  AfterVertexCheck(s, d) == StageReport(VertexStage, d.vertexShader, FailureMessage(s, StageCompileFailed(VertexStage))))
            && (d.vertexCompiles ==> AfterVertexCheck(s, d) == fragment + AfterFragmentCheck(s, d))
            && (!d.fragmentCompiles ==>
                  AfterFragmentCheck(s, d) == StageReport(FragmentStage, d.fragmentShader, FailureMessage(s, StageCompileFailed(FragmentStage))))
            && (d.fragmentCompiles ==>
                  AfterFragmentCheck(s, d) == AttachCalls(d.program, d.vertexShader, d.fragmentShader) + (LinkCalls(d.program) + AfterLinkCheck(s, d)))
  {
  }

  /**
    The calls of `compile`, one lemma per way it can end. Each stage is created, given its own
    source, compiled and checked; a failed check adds its three-call report and stops.
   */
  lemma CompileSuccessCalls(s: Shader, d: CompileDevice)
    requires d.vertexCompiles && d.fragmentCompiles && d.links
    ensures Compile(s, d).trace
            == [CreateShader(VertexStage, d.vertexShader), ShaderSource(VertexStage, d.vertexShader, s.vertexSource),
                CompileShader(VertexStage, d.vertexShader), GetShaderParam(VertexStage, d.vertexShader, CompileStatus)]
               + ([CreateShader(FragmentStage, d.fragmentShader), ShaderSource(FragmentStage, d.fragmentShader, s.fragmentSource),
                  CompileShader(FragmentStage, d.fragmentShader), GetShaderParam(FragmentStage, d.fragmentShader, CompileStatus)]
               + ([CreateProgram(d.program), AttachShader(d.program, VertexStage, d.vertexShader),
                  AttachShader(d.program, FragmentStage, d.fragmentShader),
                  LinkProgram(d.program), GetProgramParam(d.program, LinkStatus)]
               + [DeleteShader(VertexStage, d.vertexShader), DeleteShader(FragmentStage, d.fragmentShader)]))
  {
  }

  lemma CompileVertexFailureCalls(s: Shader, d: CompileDevice)
    requires !d.vertexCompiles
    ensures Compile(s, d).trace
            == [CreateShader(VertexStage, d.vertexShader), ShaderSource(VertexStage, d.vertexShader, s.vertexSource),
                CompileShader(VertexStage, d.vertexShader), GetShaderParam(VertexStage, d.vertexShader, CompileStatus)]
               + [GetShaderParam(VertexStage, d.vertexShader, InfoLogLength),
                  Log("ERROR: '" + s.vertexPath + "'\n\tVertex shader compilation failed."),
                  GetShaderInfoLog(VertexStage, d.vertexShader)]
  {
  }

  lemma CompileFragmentFailureCalls(s: Shader, d: CompileDevice)
    requires d.vertexCompiles && !d.fragmentCompiles
    ensures Compile(s, d).trace
            == [CreateShader(VertexStage, d.vertexShader), ShaderSource(VertexStage, d.vertexShader, s.vertexSource),
                CompileShader(VertexStage, d.vertexShader), GetShaderParam(VertexStage, d.vertexShader, CompileStatus)]
               + ([CreateShader(FragmentStage, d.fragmentShader), ShaderSource(FragmentStage, d.fragmentShader, s.fragmentSource),
                  CompileShader(FragmentStage, d.fragmentShader), GetShaderParam(FragmentStage, d.fragmentShader, CompileStatus)]
               + [GetShaderParam(FragmentStage, d.fragmentShader, InfoLogLength),
                  Log("ERROR: '" + s.fragmentPath + "'\n\tFragment shader compilation failed."),
                  GetShaderInfoLog(FragmentStage, d.fragmentShader)])
  {
  }

  lemma CompileLinkFailureCalls(s: Shader, d: CompileDevice)
    requires d.vertexCompiles && d.fragmentCompiles && !d.links
    ensures Compile(s, d).trace
            == [CreateShader(VertexStage, d.vertexShader), ShaderSource(VertexStage, d.vertexShader, s.vertexSource),
                CompileShader(VertexStage, d.vertexShader), GetShaderParam(VertexStage, d.vertexShader, CompileStatus)]
               + ([CreateShader(FragmentStage, d.fragmentShader), ShaderSource(FragmentStage, d.fragmentShader, s.fragmentSource),
                  CompileShader(FragmentStage, d.fragmentShader), GetShaderParam(FragmentStage, d.fragmentShader, CompileStatus)]
               + ([CreateProgram(d.program), AttachShader(d.program, VertexStage, d.vertexShader),
                  AttachShader(d.program, FragmentStage, d.fragmentShader),
                  LinkProgram(d.program), GetProgramParam(d.program, LinkStatus)]
               + [GetProgramParam(d.program, InfoLogLength),
                  Log("ERROR: '" + s.vertexPath + "' or '" + s.fragmentPath + "'\n\tLinking of shaders failed."),
                  GetProgramInfoLog(d.program)]))
  {
  }

  lemma StageCallsAvoid(stage: Stage, id: int, source: string)
    ensures var t := StageCalls(stage, id, source);
            && NoneIn(t, AttachCall) && NoneIn(t, LinkCall) && NoneIn(t, LinkStatusQuery)
            && NoneIn(t, DeleteCall) && NoneIn(t, OtherThanCompile)
            && NoneIn(t, if stage == VertexStage then FragmentWork else VertexWork)
  {
  }

  lemma StageReportAvoid(stage: Stage, id: int, message: string)
    ensures var t := StageReport(stage, id, message);
            && NoneIn(t, AttachCall) && NoneIn(t, LinkCall) && NoneIn(t, LinkStatusQuery)
            && NoneIn(t, DeleteCall) && NoneIn(t, OtherThanCompile)
            && NoneIn(t, if stage == VertexStage then FragmentWork else VertexWork)
  {
  }

  lemma AttachCallsAvoid(program: int, vertexShader: int, fragmentShader: int)
    ensures var t := AttachCalls(program, vertexShader, fragmentShader);
            && NoneIn(t, VertexWork) && NoneIn(t, FragmentWork) && NoneIn(t, LinkCall)
            && NoneIn(t, LinkStatusQuery) && NoneIn(t, DeleteCall) && NoneIn(t, OtherThanCompile)
  {
  }

  lemma LinkCallsAvoid(program: int)
    ensures var t := LinkCalls(program);
            && NoneIn(t, VertexWork) && NoneIn(t, FragmentWork) && NoneIn(t, AttachCall)
            && NoneIn(t, DeleteCall) && NoneIn(t, OtherThanCompile) && NoneIn(t, LinkOfOther(program))
  {
  }

  lemma AfterLinkCheckAvoid(s: Shader, d: CompileDevice)
    ensures var t := AfterLinkCheck(s, d);
            && NoneIn(t, VertexWork) && NoneIn(t, FragmentWork) && NoneIn(t, AttachCall)
            && NoneIn(t, LinkCall) && NoneIn(t, LinkStatusQuery) && NoneIn(t, OtherThanCompile)
            && (!d.links ==> NoneIn(t, DeleteCall))
  {
  }

  /** Attach, link and what follows: no stage work, and only compile calls. */
  lemma ProgramStepAvoid(s: Shader, d: CompileDevice)
    requires d.fragmentCompiles
    ensures NoneIn(AfterFragmentCheck(s, d), VertexWork) && NoneIn(AfterFragmentCheck(s, d), OtherThanCompile)
  {
    CompileTrace(s, d);
    var attach := AttachCalls(d.program, d.vertexShader, d.fragmentShader);
    var link := LinkCalls(d.program);
    var last := AfterLinkCheck(s, d);
    AttachCallsAvoid(d.program, d.vertexShader, d.fragmentShader);
    LinkCallsAvoid(d.program);
    AfterLinkCheckAvoid(s, d);
    NoneInConcat(link, last, VertexWork);
    NoneInConcat(attach, link + last, VertexWork);
    NoneInConcat(link, last, OtherThanCompile);
    NoneInConcat(attach, link + last, OtherThanCompile);
  }

  /** Everything after the vertex stage check: no more vertex work, and only compile calls. */
  lemma AfterVertexCheckAvoid(s: Shader, d: CompileDevice)
    requires d.vertexCompiles
    ensures NoneIn(AfterVertexCheck(s, d), VertexWork) && NoneIn(AfterVertexCheck(s, d), OtherThanCompile)
  {
    CompileTrace(s, d);
    var fragment := StageCalls(FragmentStage, d.fragmentShader, s.fragmentSource);
    StageCallsAvoid(FragmentStage, d.fragmentShader, s.fragmentSource);
    if d.fragmentCompiles {
      ProgramStepAvoid(s, d);
    } else {
      StageReportAvoid(FragmentStage, d.fragmentShader, FailureMessage(s, StageCompileFailed(FragmentStage)));
    }
    NoneInConcat(fragment, AfterFragmentCheck(s, d), VertexWork);
    NoneInConcat(fragment, AfterFragmentCheck(s, d), OtherThanCompile);
  }

  /** The vertex stage is created, compiled and checked before anything happens to the fragment stage. */
  lemma CompileVertexBeforeFragment(s: Shader, d: CompileDevice)
    ensures AllBefore(Compile(s, d).trace, VertexWork, FragmentWork)
  {
    CompileTrace(s, d);
    var vertex := StageCalls(VertexStage, d.vertexShader, s.vertexSource);
    var rest := AfterVertexCheck(s, d);
    StageCallsAvoid(VertexStage, d.vertexShader, s.vertexSource);
    if !d.vertexCompiles {
      StageReportAvoid(VertexStage, d.vertexShader, FailureMessage(s, StageCompileFailed(VertexStage)));
      NoneInConcat(vertex, rest, FragmentWork);
    } else {
      AfterVertexCheckAvoid(s, d);
      AllBeforeConcat(vertex, rest, VertexWork, FragmentWork);
    }
  }

  /** The fragment stage is compiled exactly when the vertex stage compiled. */
  lemma CompileFragmentOnlyAfterVertexSucceeds(s: Shader, d: CompileDevice)
    ensures d.vertexCompiles <==> CompileShader(FragmentStage, d.fragmentShader) in Compile(s, d).trace
  {
    CompileTrace(s, d);
    var vertex := StageCalls(VertexStage, d.vertexShader, s.vertexSource);
    var rest := AfterVertexCheck(s, d);
    if d.vertexCompiles {
      assert CompileShader(FragmentStage, d.fragmentShader) in StageCalls(FragmentStage, d.fragmentShader, s.fragmentSource);
    } else {
      assert CompileShader(FragmentStage, d.fragmentShader) !in vertex;
      assert CompileShader(FragmentStage, d.fragmentShader) !in rest;
    }
  }

  /** The link step of a fully compiled program: attachments strictly before the single link. */
  lemma LinkStepShape(s: Shader, d: CompileDevice)
    requires d.fragmentCompiles
    ensures AllBefore(AfterFragmentCheck(s, d), AttachCall, LinkCall)
    ensures Count(AfterFragmentCheck(s, d), LinkCall) == 1
  {
    CompileTrace(s, d);
    var attach := AttachCalls(d.program, d.vertexShader, d.fragmentShader);
    var link := LinkCalls(d.program);
    var last := AfterLinkCheck(s, d);
    AttachCallsAvoid(d.program, d.vertexShader, d.fragmentShader);
    LinkCallsAvoid(d.program);
    AfterLinkCheckAvoid(s, d);
    NoneInConcat(link, last, AttachCall);
    AllBeforeConcat(attach, link + last, AttachCall, LinkCall);
    CountNone(attach, LinkCall);
    CountNone(last, LinkCall);
    assert link[1..] == [GetProgramParam(d.program, LinkStatus)];
    assert Count(link, LinkCall) == 1;
    CountConcat(link, last, LinkCall);
    CountConcat(attach, link + last, LinkCall);
  }

  /** A stage that fails to compile stops `compile` before any program object is touched. */
  lemma CompileFailureNeverLinks(s: Shader, d: CompileDevice)
    requires !(d.vertexCompiles && d.fragmentCompiles)
    ensures NoneIn(Compile(s, d).trace, AttachCall) && NoneIn(Compile(s, d).trace, LinkCall)
    ensures NoneIn(Compile(s, d).trace, LinkStatusQuery) && NoneIn(Compile(s, d).trace, DeleteCall)
  {
    CompileTrace(s, d);
    var vertex := StageCalls(VertexStage, d.vertexShader, s.vertexSource);
    var rest := AfterVertexCheck(s, d);
    StageCallsAvoid(VertexStage, d.vertexShader, s.vertexSource);
    if d.vertexCompiles {
      var fragment := StageCalls(FragmentStage, d.fragmentShader, s.fragmentSource);
      var report := AfterFragmentCheck(s, d);
      StageCallsAvoid(FragmentStage, d.fragmentShader, s.fragmentSource);
      StageReportAvoid(FragmentStage, d.fragmentShader, FailureMessage(s, StageCompileFailed(FragmentStage)));
      NoneInConcat(fragment, report, AttachCall);
      NoneInConcat(fragment, report, LinkCall);
      NoneInConcat(fragment, report, LinkStatusQuery);
      NoneInConcat(fragment, report, DeleteCall);
    } else {
      StageReportAvoid(VertexStage, d.vertexShader, FailureMessage(s, StageCompileFailed(VertexStage)));
    }
    NoneInConcat(vertex, rest, AttachCall);
    NoneInConcat(vertex, rest, LinkCall);
    NoneInConcat(vertex, rest, LinkStatusQuery);
    NoneInConcat(vertex, rest, DeleteCall);
  }

  /** Both stages are attached before the link, and the link happens only once both stages compiled. */
  lemma CompileAttachesBeforeLink(s: Shader, d: CompileDevice)
    ensures AllBefore(Compile(s, d).trace, AttachCall, LinkCall)
    ensures d.vertexCompiles && d.fragmentCompiles ==>
              && AttachShader(d.program, VertexStage, d.vertexShader) in Compile(s, d).trace
              && AttachShader(d.program, FragmentStage, d.fragmentShader) in Compile(s, d).trace
              && Count(Compile(s, d).trace, LinkCall) == 1
    ensures !(d.vertexCompiles && d.fragmentCompiles) ==>
              Count(Compile(s, d).trace, AttachCall) == 0 && Count(Compile(s, d).trace, LinkCall) == 0
  {
    var t := Compile(s, d).trace;
    if d.vertexCompiles && d.fragmentCompiles {
      CompileTrace(s, d);
      var vertex := StageCalls(VertexStage, d.vertexShader, s.vertexSource);
      var rest := AfterVertexCheck(s, d);
      var fragment := StageCalls(FragmentStage, d.fragmentShader, s.fragmentSource);
      var tail := AfterFragmentCheck(s, d);
      var attach := AttachCalls(d.program, d.vertexShader, d.fragmentShader);
      assert AttachShader(d.program, VertexStage, d.vertexShader) in attach;
      assert AttachShader(d.program, FragmentStage, d.fragmentShader) in attach;
      StageCallsAvoid(VertexStage, d.vertexShader, s.vertexSource);
      StageCallsAvoid(FragmentStage, d.fragmentShader, s.fragmentSource);
      LinkStepShape(s, d);
      AllBeforePrepend(fragment, tail, AttachCall, LinkCall);
      AllBeforePrepend(vertex, rest, AttachCall, LinkCall);
      CountNone(fragment, LinkCall);
      CountConcat(fragment, tail, LinkCall);
      CountNone(vertex, LinkCall);
      CountConcat(vertex, rest, LinkCall);
    } else {
      CompileFailureNeverLinks(s, d);
      CountNone(t, AttachCall);
      CountNone(t, LinkCall);
    }
  }

  /** The only program `compile` links is the one the library created for it. */
  lemma CompileLinksOwnProgram(s: Shader, d: CompileDevice)
    ensures NoneIn(Compile(s, d).trace, LinkOfOther(d.program))
    ensures d.vertexCompiles && d.fragmentCompiles ==> LinkProgram(d.program) in Compile(s, d).trace
  {
    var t := Compile(s, d).trace;
    if d.vertexCompiles && d.fragmentCompiles {
      CompileTrace(s, d);
      var vertex := StageCalls(VertexStage, d.vertexShader, s.vertexSource);
      var fragment := StageCalls(FragmentStage, d.fragmentShader, s.fragmentSource);
      var attach := AttachCalls(d.program, d.vertexShader, d.fragmentShader);
      var link := LinkCalls(d.program);
      var last := AfterLinkCheck(s, d);
      StageCallsAvoid(VertexStage, d.vertexShader, s.vertexSource);
      StageCallsAvoid(FragmentStage, d.fragmentShader, s.fragmentSource);
      AttachCallsAvoid(d.program, d.vertexShader, d.fragmentShader);
      LinkCallsAvoid(d.program);
      AfterLinkCheckAvoid(s, d);
      NoneInConcat(link, last, LinkOfOther(d.program));
      NoneInConcat(attach, link + last, LinkOfOther(d.program));
      NoneInConcat(fragment, attach + (link + last), LinkOfOther(d.program));
      NoneInConcat(vertex, fragment + (attach + (link + last)), LinkOfOther(d.program));
      assert LinkProgram(d.program) in link;
    } else {
      CompileFailureNeverLinks(s, d);
    }
  }

  /** The stage objects are deleted only after the link status has been checked, and only on success. */
  lemma CompileDeletesAfterLinkCheck(s: Shader, d: CompileDevice)
    ensures AllBefore(Compile(s, d).trace, LinkStatusQuery, DeleteCall)
    ensures Compile(s, d).fault.None? ==>
              && DeleteShader(VertexStage, d.vertexShader) in Compile(s, d).trace
              && DeleteShader(FragmentStage, d.fragmentShader) in Compile(s, d).trace
    ensures Compile(s, d).fault.Some? ==> Count(Compile(s, d).trace, DeleteCall) == 0
  {
    var t := Compile(s, d).trace;
    if !(d.vertexCompiles && d.fragmentCompiles) {
      CompileFailureNeverLinks(s, d);
      CountNone(t, DeleteCall);
    } else {
      ProgramDeletesAfterLinkCheck(s, d);
      CompileTrace(s, d);
      var vertex := StageCalls(VertexStage, d.vertexShader, s.vertexSource);
      var fragment := StageCalls(FragmentStage, d.fragmentShader, s.fragmentSource);
      var tail := AfterFragmentCheck(s, d);
      StageCallsAvoid(VertexStage, d.vertexShader, s.vertexSource);
      StageCallsAvoid(FragmentStage, d.fragmentShader, s.fragmentSource);
      AllBeforePrepend(fragment, tail, LinkStatusQuery, DeleteCall);
      AllBeforePrepend(vertex, fragment + tail, LinkStatusQuery, DeleteCall);
      if !d.links {
        NoneInConcat(fragment, tail, DeleteCall);
        NoneInConcat(vertex, fragment + tail, DeleteCall);
        CountNone(t, DeleteCall);
      }
    }
  }

  /** The part after both stage checks: deletes follow the link status query, and happen only on success. */
  lemma ProgramDeletesAfterLinkCheck(s: Shader, d: CompileDevice)
    requires d.fragmentCompiles
    ensures AllBefore(AfterFragmentCheck(s, d), LinkStatusQuery, DeleteCall)
    ensures d.links ==>
              && DeleteShader(VertexStage, d.vertexShader) in AfterFragmentCheck(s, d)
              && DeleteShader(FragmentStage, d.fragmentShader) in AfterFragmentCheck(s, d)
    ensures !d.links ==> NoneIn(AfterFragmentCheck(s, d), DeleteCall)
  {
    CompileTrace(s, d);
    var attach := AttachCalls(d.program, d.vertexShader, d.fragmentShader);
    var link := LinkCalls(d.program);
    var last := AfterLinkCheck(s, d);
    AttachCallsAvoid(d.program, d.vertexShader, d.fragmentShader);
    AfterLinkCheckAvoid(s, d);
    assert NoneIn(link, DeleteCall);
    AllBeforeConcat(link, last, LinkStatusQuery, DeleteCall);
    AllBeforePrepend(attach, link + last, LinkStatusQuery, DeleteCall);
    if d.links {
      assert DeleteShader(VertexStage, d.vertexShader) in last;
      assert DeleteShader(FragmentStage, d.fragmentShader) in last;
    } else {
      NoneInConcat(link, last, DeleteCall);
      NoneInConcat(attach, link + last, DeleteCall);
    }
  }

  /** `compile` touches nothing but shader and program objects (and the log). */
  lemma CompileMakesOnlyCompileCalls(s: Shader, d: CompileDevice)
    ensures NoneIn(Compile(s, d).trace, OtherThanCompile)
  {
    CompileTrace(s, d);
    var vertex := StageCalls(VertexStage, d.vertexShader, s.vertexSource);
    StageCallsAvoid(VertexStage, d.vertexShader, s.vertexSource);
    if d.vertexCompiles {
      AfterVertexCheckAvoid(s, d);
    } else {
      StageReportAvoid(VertexStage, d.vertexShader, FailureMessage(s, StageCompileFailed(VertexStage)));
    }
    NoneInConcat(vertex, AfterVertexCheck(s, d), OtherThanCompile);
  }

  /** `use`: binds the program unless it is already in use. */
  function Use(s: Shader): (r: Step<Shader>)
    ensures r.state == s.(beingUsed := true)
    ensures r.trace == [] <==> s.beingUsed
    ensures |r.trace| <= 1 && forall i :: 0 <= i < |r.trace| ==> r.trace[i] == UseProgram(s.programId)
  {
    if !s.beingUsed then Step(s.(beingUsed := true), [UseProgram(s.programId)])
    else Step(s, [])
  }

  /** `detach`: always unbinds, whatever the flag said. */
  function Detach(s: Shader): (r: Step<Shader>)
    ensures r.state == s.(beingUsed := false)
    ensures r.trace == [UseProgram(0)]
  {
    Step(s.(beingUsed := false), [UseProgram(0)])
  }

  /** Two `use` calls in a row from an unbound shader issue exactly one bind. */
  lemma UseTwiceBindsOnce(s: Shader)
    requires !s.beingUsed
    ensures Use(s).trace + Use(Use(s).state).trace == [UseProgram(s.programId)]
    ensures Use(Use(s).state) == Step(Use(s).state, [])
  {
  }

  /** `use` after `detach` binds again, with one new bind. */
  lemma UseAfterDetachRebinds(s: Shader)
    ensures Detach(s).trace + Use(Detach(s).state).trace == [UseProgram(0), UseProgram(s.programId)]
    ensures Use(Detach(s).state).state.beingUsed
  {
  }

  /** The flag tells the truth: while it is set, the library has this program bound. */
  predicate InSync(s: Shader, b: Binding)
  {
    s.beingUsed ==> b.program == s.programId
  }

  lemma UseBinds(s: Shader, b: Binding)
    requires InSync(s, b)
    ensures Run(b, Use(s).trace) == b.(program := s.programId)
    ensures InSync(Use(s).state, Run(b, Use(s).trace))
  {
    if !s.beingUsed {
      assert Run(b, Use(s).trace) == Run(Apply(b, UseProgram(s.programId)), []);
    } else {
      assert b == b.(program := s.programId);
    }
  }

  lemma DetachUnbinds(s: Shader, b: Binding)
    ensures Run(b, Detach(s).trace) == b.(program := 0)
    ensures InSync(Detach(s).state, Run(b, Detach(s).trace))
  {
    assert Run(b, Detach(s).trace) == Run(Apply(b, UseProgram(0)), []);
  }
}

=== FILE: window.dfy ===
/**
  Window: the singleton that owns the current scene and runs the frame loop. GLFW set-up and
  teardown are outside the model; what remains is the constructor's defaults, the scene switch
  and the loop's time keeping. The loop's clock readings are an explicit parameter, and the
  number of frames is fixed by how many readings there are.
 */
module Window {
  import opened Wrappers
  import opened GlEvents
  import LevelEditorScene

  /**
    The scene the window drives. The level scene's body is not part of this model: its `init`
    and `update` appear only as the window's calls into it.
   */
  datatype Scene = Editor(editor: LevelEditorScene.Scene) | Level

  function Kind(sc: Scene): SceneKind
  {
    if sc.Editor? then LevelEditorKind else LevelKind
  }

  /** A scene whose `update` can run. */
  predicate SceneReady(sc: Scene)
  {
    sc.Editor? ==> LevelEditorScene.Ready(sc.editor)
  }

  datatype WindowState = WindowState(
    width: int, height: int, title: string,
    r: real, g: real, b: real, a: real,
    currentScene: Option<Scene>)

  /** A window whose loop can run: some scene is current and ready. */
  predicate Ready(w: WindowState)
  {
    w.currentScene.Some? && SceneReady(w.currentScene.value)
  }

  /** The constructor: 800 by 600, titled after the library version, clear colour white, no scene. */
  function New(version: string): (w: WindowState)
    ensures w.width == 800 && w.height == 600
    ensures w.title == "LWJGL " + version
    ensures w.r == 1.0 && w.g == 1.0 && w.b == 1.0 && w.a == 1.0
    ensures w.currentScene.None? && !Ready(w)
  {
    WindowState(800, 600, "LWJGL " + version, 1.0, 1.0, 1.0, 1.0, None)
  }

  /**
    `changeScene`: scene 0 is a new level editor, scene 1 a new level; either becomes current
    before its `init` runs, so an `init` that stops at an assertion leaves it current. Any
    other id stops at an assertion with nothing changed.
   */
  function ChangeScene(w: WindowState, id: int, load: string -> Option<string>, dev: LevelEditorScene.SceneDevice)
    : (r: Outcome<WindowState>)
    ensures id != 0 && id != 1 <==> r.fault == Some(UnknownScene(id))
    ensures id != 0 && id != 1 ==> r.state == w && r.trace == []
    ensures id == 0 || id == 1 ==>
              && r.state.currentScene.Some?
              && Kind(r.state.currentScene.value) == (if id == 0 then LevelEditorKind else LevelKind)
              && r.state.(currentScene := w.currentScene) == w
    ensures id == 0 ==>
              && r.state.currentScene.value.editor == LevelEditorScene.Init(LevelEditorScene.Fresh(), load, dev).state
              && r.trace == [InitScene(LevelEditorKind)] + LevelEditorScene.Init(LevelEditorScene.Fresh(), load, dev).trace
    ensures id == 0 && r.fault.None? ==>
              var editor := r.state.currentScene.value.editor;
              && editor.vao == dev.vao && editor.vbo == dev.vbo && editor.ebo == dev.ebo
              && editor.shader.Some? && editor.shader.value.programId == dev.compile.program && !editor.shader.value.beingUsed
    ensures id == 0 && r.fault.Some? ==>
              var editor := r.state.currentScene.value.editor;
              editor.vao == 0 && editor.vbo == 0 && editor.ebo == 0
    ensures id == 0 ==> (r.fault.None? <==> LevelEditorScene.InitSucceeds(load, dev))
    ensures id == 1 ==> r.fault.None?
    ensures r.fault.None? ==> Ready(r.state)
  {
    if id == 0 then
      var init := LevelEditorScene.Init(LevelEditorScene.Fresh(), load, dev);
      Outcome(w.(currentScene := Some(Editor(init.state))), [InitScene(LevelEditorKind)] + init.trace, init.fault)
    else if id == 1 then
      Outcome(w.(currentScene := Some(Level)), [InitScene(LevelKind)], None)
    else
      Outcome(w, [], Some(UnknownScene(id)))
  }

  /** A scene switch calls `init` on the new scene exactly once, and on no other scene. */
  lemma ChangeSceneInitsOnce(w: WindowState, id: int, load: string -> Option<string>, dev: LevelEditorScene.SceneDevice)
    ensures var r := ChangeScene(w, id, load, dev);
            Count(r.trace, SceneInit) == (if id == 0 || id == 1 then 1 else 0)
    ensures id == 0 || id == 1 ==>
              var r := ChangeScene(w, id, load, dev);
              r.trace[0] == InitScene(Kind(r.state.currentScene.value))
  {
    if id == 0 {
      var init := LevelEditorScene.Init(LevelEditorScene.Fresh(), load, dev);
      LevelEditorScene.InitMakesNoWindowCalls(LevelEditorScene.Fresh(), load, dev);
      WindowCallClasses();
      NoneInWeaken(init.trace, WindowCall, SceneInit);
      CountNone(init.trace, SceneInit);
      CountConcat([InitScene(LevelEditorKind)], init.trace, SceneInit);
    }
  }

  /** The current scene's `update`, announced by the window's call into it. */
  function UpdateCurrent(sc: Scene, dt: real): (r: Step<Scene>)
    requires SceneReady(sc)
    ensures SceneReady(r.state) && Kind(r.state) == Kind(sc)
    ensures |r.trace| >= 1 && r.trace[0] == UpdateScene(Kind(sc), dt)
    ensures NoneIn(r.trace[1..], WindowCall)
    ensures sc.Editor? ==>
              && r.state == Editor(sc.editor.(shader := Some(sc.editor.shader.value.(beingUsed := false))))
              && r.trace[1..] == LevelEditorScene.Update(sc.editor).trace
    ensures sc.Level? ==> r == Step(Level, [UpdateScene(LevelKind, dt)])
  {
    if sc.Editor? then
      var u := LevelEditorScene.Update(sc.editor);
      LevelEditorScene.UpdateMakesNoWindowCalls(sc.editor);
      assert ([UpdateScene(LevelEditorKind, dt)] + u.trace)[1..] == u.trace;
      Step(Editor(u.state), [UpdateScene(LevelEditorKind, dt)] + u.trace)
    else
      Step(Level, [UpdateScene(LevelKind, dt)])
  }

  /** The calls that open every frame: poll, set the clear colour, clear colour and depth. */
  function FrameStart(w: WindowState): seq<Event>
  {
    [PollEvents, ClearColor(w.r, w.g, w.b, w.a), ClearColorAndDepth]
  }

  /**
    One pass of the loop body with the current `dt`: the scene is updated only when `dt` is
    not negative, and only the scene can change.
   */
  function Frame(w: WindowState, dt: real): (r: Step<WindowState>)
    requires Ready(w)
    ensures Ready(r.state)
    ensures Kind(r.state.currentScene.value) == Kind(w.currentScene.value)
    ensures r.state.(currentScene := w.currentScene) == w
    ensures dt < 0.0 ==> r.state == w
    ensures w.currentScene.value.Editor? ==>
              var before, after := w.currentScene.value.editor, r.state.currentScene.value.editor;
              && after.vao == before.vao && after.vbo == before.vbo && after.ebo == before.ebo
              && after.shader.value.programId == before.shader.value.programId
  {
    if dt >= 0.0 then
      var u := UpdateCurrent(w.currentScene.value, dt);
      Step(w.(currentScene := Some(u.state)), FrameStart(w) + (u.trace + [SwapBuffers]))
    else
      Step(w, FrameStart(w) + [SwapBuffers])
  }

  /** A pass with a non-negative `dt` over the editor draws exactly once. */
  lemma EditorFrameDrawsOnce(w: WindowState, dt: real)
    requires Ready(w) && w.currentScene.value.Editor? && dt >= 0.0
    ensures Count(Frame(w, dt).trace, DrawCall) == 1
  {
    EditorFrameTrace(w, dt);
    FrameEdgesIdle(w, dt);
    LevelEditorScene.UpdateDrawsOnce(w.currentScene.value.editor);
    CountMiddle(FrameStart(w) + [UpdateScene(LevelEditorKind, dt)], [SwapBuffers],
                LevelEditorScene.Update(w.currentScene.value.editor).trace, DrawCall);
  }

  /**
    A pass with a non-negative `dt` over the editor, whatever was bound before, leaves no
    program, no vertex array and neither attribute slot enabled.
   */
  lemma EditorFrameUnbinds(w: WindowState, dt: real, b: Binding)
    requires Ready(w) && w.currentScene.value.Editor? && dt >= 0.0
    ensures var after := Run(b, Frame(w, dt).trace);
            after.program == 0 && after.vao == 0 && 0 !in after.enabled && 1 !in after.enabled
  {
    var head, swap := FrameStart(w) + [UpdateScene(LevelEditorKind, dt)], [SwapBuffers];
    var u := LevelEditorScene.Update(w.currentScene.value.editor).trace;
    EditorFrameTrace(w, dt);
    FrameEdgesIdle(w, dt);
    RunConcat(b, head, u + swap);
    RunUntouched(b, head);
    RunConcat(b, u, swap);
    LevelEditorScene.UpdateLeavesNothingBound(w.currentScene.value.editor, b);
    RunUntouched(Run(b, u), swap);
  }

  /** The window's own calls around the editor's update neither draw nor bind. */
  lemma FrameEdgesIdle(w: WindowState, dt: real)
    ensures var head := FrameStart(w) + [UpdateScene(LevelEditorKind, dt)];
            NoneIn(head, DrawCall) && NoneIn(head, BindingCall)
    ensures NoneIn([SwapBuffers], DrawCall) && NoneIn([SwapBuffers], BindingCall)
  {
  }

  /** The calls of a pass over the editor: the opening calls, the marker, the editor's update, the swap. */
  lemma EditorFrameTrace(w: WindowState, dt: real)
    requires Ready(w) && w.currentScene.value.Editor? && dt >= 0.0
    ensures Frame(w, dt).trace
            == (FrameStart(w) + [UpdateScene(LevelEditorKind, dt)])
               + (LevelEditorScene.Update(w.currentScene.value.editor).trace + [SwapBuffers])
  {
    var u := UpdateCurrent(w.currentScene.value, dt).trace;
    assert u == [u[0]] + u[1..];
  }

  /** A new window, once a scene is current, clears every pass to the constructor's opaque white. */
  lemma NewWindowClearsWhite(version: string, id: int, load: string -> Option<string>, dev: LevelEditorScene.SceneDevice, dt: real)
    requires ChangeScene(New(version), id, load, dev).fault.None?
    ensures var w := ChangeScene(New(version), id, load, dev).state;
            Frame(w, dt).trace[1] == ClearColor(1.0, 1.0, 1.0, 1.0)
  {
    var w := ChangeScene(New(version), id, load, dev).state;
    FrameClearsToWindowColour(w, dt);
    assert Frame(w, dt).trace[..3][1] == Frame(w, dt).trace[1];
  }

  /** Every pass opens with a poll, the window's own clear colour and the clear, and ends with the swap. */
  lemma FrameClearsToWindowColour(w: WindowState, dt: real)
    requires Ready(w)
    ensures var t := Frame(w, dt).trace;
            && |t| >= 4 && t[..3] == [PollEvents, ClearColor(w.r, w.g, w.b, w.a), ClearColorAndDepth]
            && t[|t| - 1] == SwapBuffers
  {
  }

  /** Inside a frame: poll, then clear, then update, then swap. */
  lemma FrameOrder(w: WindowState, dt: real)
    requires Ready(w)
    ensures var t := Frame(w, dt).trace;
            && AllBefore(t, Poll, Clearing)
            && AllBefore(t, Clearing, SceneUpdate)
            && AllBefore(t, SceneUpdate, Swap)
            && Count(t, Swap) == 1
  {
    if dt >= 0.0 {
      var u := UpdateCurrent(w.currentScene.value, dt).trace;
      UpdateThenSwap(u);
      StartThenRest(w, u + [SwapBuffers]);
    } else {
      assert Count([SwapBuffers], Swap) == 1;
      StartThenRest(w, [SwapBuffers]);
    }
  }

  /** The opening calls followed by calls that neither poll nor clear. */
  lemma StartThenRest(w: WindowState, rest: seq<Event>)
    requires NoneIn(rest, Clearing) && NoneIn(rest, Poll)
    requires AllBefore(rest, SceneUpdate, Swap) && Count(rest, Swap) == 1
    ensures var t := FrameStart(w) + rest;
            && AllBefore(t, Poll, Clearing)
            && AllBefore(t, Clearing, SceneUpdate)
            && AllBefore(t, SceneUpdate, Swap)
            && Count(t, Swap) == 1
  {
    var s := FrameStart(w);
    assert NoneIn(s, SceneUpdate) && NoneIn(s, Swap);
    assert AllBefore(s, Poll, Clearing);
    AllBeforeConcat(s, rest, Clearing, SceneUpdate);
    AllBeforePrepend(s, rest, SceneUpdate, Swap);
    AllBeforeAppend(s, rest, Poll, Clearing);
    CountNone(s, Swap);
    CountConcat(s, rest, Swap);
  }

  /**
    A scene update's calls, as `UpdateCurrent` promises them, followed by the swap: no poll or
    clear, one swap at the end, and one update call, with the update's `dt`.
   */
  lemma UpdateThenSwap(u: seq<Event>)
    requires |u| >= 1 && u[0].UpdateScene? && NoneIn(u[1..], WindowCall)
    ensures var rest := u + [SwapBuffers];
            && NoneIn(rest, Clearing) && NoneIn(rest, Poll)
            && AllBefore(rest, SceneUpdate, Swap) && Count(rest, Swap) == 1
            && UpdateArgs(rest) == [u[0].dt]
  {
    var tail := u[1..];
    assert u == [u[0]] + tail;
    WindowCallClasses();
    NoneInWeaken(tail, WindowCall, Clearing);
    NoneInWeaken(tail, WindowCall, Poll);
    NoneInWeaken(tail, WindowCall, Swap);
    NoneInWeaken(tail, WindowCall, SceneUpdate);
    NoneInConcat([u[0]], tail, Clearing);
    NoneInConcat([u[0]], tail, Poll);
    NoneInConcat([u[0]], tail, Swap);
    NoneInConcat(u, [SwapBuffers], Clearing);
    NoneInConcat(u, [SwapBuffers], Poll);
    AllBeforeConcat(u, [SwapBuffers], SceneUpdate, Swap);
    CountNone(u, Swap);
    CountConcat(u, [SwapBuffers], Swap);
    CountNone(tail, SceneUpdate);
    UpdateArgsConcat([u[0]], tail);
    assert UpdateArgs([SwapBuffers]) == [];
    UpdateArgsConcat(u, [SwapBuffers]);
  }

  /** The `dt` arguments of the window's calls into scene updates, in order. */
  function UpdateArgs(t: seq<Event>): (a: seq<real>)
    ensures |a| == Count(t, SceneUpdate)
  {
    if t == [] then []
    else (if t[0].UpdateScene? then [t[0].dt] else []) + UpdateArgs(t[1..])
  }

  lemma {:induction false} UpdateArgsConcat(s: seq<Event>, t: seq<Event>)
    ensures UpdateArgs(s + t) == UpdateArgs(s) + UpdateArgs(t)
  {
    if s == [] {
      assert s + t == t;
    } else {
      var head := if s[0].UpdateScene? then [s[0].dt] else [];
      assert (s + t)[0] == s[0] && (s + t)[1..] == s[1..] + t;
      assert UpdateArgs(s + t) == head + UpdateArgs(s[1..] + t);
      assert UpdateArgs(s) == head + UpdateArgs(s[1..]);
      UpdateArgsConcat(s[1..], t);
    }
  }

  /** A frame calls the scene's update with `dt` exactly when `dt` is not negative. */
  lemma FrameUpdateArgs(w: WindowState, dt: real)
    requires Ready(w)
    ensures UpdateArgs(Frame(w, dt).trace) == (if dt >= 0.0 then [dt] else [])
    ensures dt >= 0.0 ==> UpdateScene(Kind(w.currentScene.value), dt) in Frame(w, dt).trace
  {
    var s := FrameStart(w);
    assert UpdateArgs(s) == [];
    if dt >= 0.0 {
      var u := UpdateCurrent(w.currentScene.value, dt).trace;
      UpdateThenSwap(u);
      UpdateArgsConcat(s, u + [SwapBuffers]);
      assert (s + (u + [SwapBuffers]))[3] == u[0];
    } else {
      assert UpdateArgs([SwapBuffers]) == [];
      UpdateArgsConcat(s, [SwapBuffers]);
    }
  }

  /** The frames for a sequence of `dt` values, one after the other. */
  function Frames(w: WindowState, dts: seq<real>): (r: Step<WindowState>)
    requires Ready(w)
    ensures Ready(r.state)
    ensures Kind(r.state.currentScene.value) == Kind(w.currentScene.value)
    ensures r.state.(currentScene := w.currentScene) == w
    decreases |dts|
  {
    if dts == [] then Step(w, [])
    else
      var p := Frames(w, dts[..|dts| - 1]);
      var f := Frame(p.state, dts[|dts| - 1]);
      Step(f.state, p.trace + f.trace)
  }

  /**
    The `dt` seen by each pass of the loop, given the clock readings taken before the loop
    (`clock[0]`) and at the end of each pass: -1 for the first pass, then the length of the
    previous pass.
   */
  function Deltas(clock: seq<real>): (d: seq<real>)
    requires |clock| >= 1
    ensures |d| == |clock| - 1
  {
    seq(|clock| - 1, k requires 0 <= k < |clock| - 1 => if k == 0 then -1.0 else clock[k] - clock[k - 1])
  }

  /** The non-negative values of `dts`, in order: the ones the loop passes to `update`. */
  function UpdatedDeltas(dts: seq<real>): (u: seq<real>)
    ensures |u| <= |dts|
  {
    if dts == [] then [] else (if dts[0] >= 0.0 then [dts[0]] else []) + UpdatedDeltas(dts[1..])
  }

  lemma {:induction false} UpdatedDeltasConcat(s: seq<real>, t: seq<real>)
    ensures UpdatedDeltas(s + t) == UpdatedDeltas(s) + UpdatedDeltas(t)
  {
    if s != [] {
      assert (s + t)[0] == s[0] && (s + t)[1..] == s[1..] + t;
      UpdatedDeltasConcat(s[1..], t);
      assert UpdatedDeltas(s + t) == (if s[0] >= 0.0 then [s[0]] else []) + UpdatedDeltas(s[1..] + t);
    } else {
      assert s + t == t;
    }
  }

  /** The update calls of a run of frames carry exactly the non-negative `dt` values, in order. */
  lemma {:induction false} FramesUpdateArgs(w: WindowState, dts: seq<real>)
    requires Ready(w)
    ensures UpdateArgs(Frames(w, dts).trace) == UpdatedDeltas(dts)
    decreases |dts|
  {
    if dts != [] {
      var init, last := dts[..|dts| - 1], dts[|dts| - 1];
      assert dts == init + [last];
      var p := Frames(w, init);
      FramesUpdateArgs(w, init);
      FrameUpdateArgs(p.state, last);
      UpdateArgsConcat(p.trace, Frame(p.state, last).trace);
      UpdatedDeltasConcat(init, [last]);
    }
  }

  /** Every frame swaps buffers once, so the swaps count the frames. */
  lemma {:induction false} FramesSwapOnce(w: WindowState, dts: seq<real>)
    requires Ready(w)
    ensures Count(Frames(w, dts).trace, Swap) == |dts|
    decreases |dts|
  {
    if dts != [] {
      var init, last := dts[..|dts| - 1], dts[|dts| - 1];
      var p := Frames(w, init);
      FramesSwapOnce(w, init);
      FrameOrder(p.state, last);
      CountConcat(p.trace, Frame(p.state, last).trace, Swap);
    }
  }

  /**
    `loop`: `dt` starts at -1; each pass polls, clears, updates the scene when `dt` is not
    negative, swaps, then reads the clock and sets `dt` to the time since the previous reading.
    `clock` holds the reading taken before the loop and one per pass.
   */
  method Loop(w: WindowState, clock: seq<real>) returns (r: WindowState, trace: seq<Event>)
    requires Ready(w) && |clock| >= 1
    ensures Step(r, trace) == Frames(w, Deltas(clock))
    ensures UpdateArgs(trace) == UpdatedDeltas(Deltas(clock))
    ensures Count(trace, Swap) == |clock| - 1
  {
    var beginTime := clock[0];
    var dt := -1.0;
    r, trace := w, [];
    var i := 0;
    while i < |clock| - 1
      invariant 0 <= i <= |clock| - 1
      invariant Ready(r)
      invariant beginTime == clock[i]
      invariant dt == if i == 0 then -1.0 else clock[i] - clock[i - 1]
      invariant Step(r, trace) == Frames(w, Deltas(clock)[..i])
    {
      ghost var done := Deltas(clock)[..i + 1];
      assert done[..i] == Deltas(clock)[..i] && done[i] == dt;
      var f := Frame(r, dt);
      r, trace := f.state, trace + f.trace;
      var endTime := clock[i + 1];
      dt := endTime - beginTime;
      beginTime := endTime;
      i := i + 1;
    }
    assert Deltas(clock)[..i] == Deltas(clock);
    FramesUpdateArgs(w, Deltas(clock));
    FramesSwapOnce(w, Deltas(clock));
  }

  /** The clock differences the loop can pass on: pass k + 1 sees `clock[k + 1] - clock[k]`. */
  function ClockSteps(clock: seq<real>): (d: seq<real>)
    requires |clock| >= 2
    ensures |d| == |clock| - 2
  {
    seq(|clock| - 2, k requires 0 <= k < |clock| - 2 => clock[k + 1] - clock[k])
  }

  /** The first pass never updates; the later ones see the clock's steps. */
  lemma DeltasSkipFirstFrame(clock: seq<real>)
    requires |clock| >= 2
    ensures Deltas(clock) == [-1.0] + ClockSteps(clock)
    ensures UpdatedDeltas(Deltas(clock)) == UpdatedDeltas(ClockSteps(clock))
  {
    var d := Deltas(clock);
    assert d == [-1.0] + ClockSteps(clock);
    assert d[1..] == ClockSteps(clock);
  }

  predicate Monotone(clock: seq<real>)
  {
    forall k :: 0 <= k < |clock| - 1 ==> clock[k] <= clock[k + 1]
  }

  lemma {:induction false} UpdatedDeltasKeepsNonNegative(dts: seq<real>)
    requires forall k :: 0 <= k < |dts| ==> dts[k] >= 0.0
    ensures UpdatedDeltas(dts) == dts
    decreases |dts|
  {
    if dts != [] {
      UpdatedDeltasKeepsNonNegative(dts[1..]);
    }
  }

  /**
    With a clock that never goes backwards, n passes make n - 1 updates, the k-th with the
    length of the pass before it.
   */
  lemma MonotoneClockUpdates(clock: seq<real>)
    requires |clock| >= 2 && Monotone(clock)
    ensures UpdatedDeltas(Deltas(clock)) == ClockSteps(clock)
    ensures |UpdatedDeltas(Deltas(clock))| == |Deltas(clock)| - 1
  {
    DeltasSkipFirstFrame(clock);
    var c := ClockSteps(clock);
    assert forall k :: 0 <= k < |c| ==> c[k] == clock[k + 1] - clock[k];
    UpdatedDeltasKeepsNonNegative(c);
  }

  /** While the level is current, no frame calls into the level editor. */
  lemma {:induction false} LevelFramesSkipEditor(w: WindowState, dts: seq<real>)
    requires w.currentScene == Some(Level)
    ensures NoneIn(Frames(w, dts).trace, UpdateOf(LevelEditorKind))
    decreases |dts|
  {
    if dts != [] {
      var init, last := dts[..|dts| - 1], dts[|dts| - 1];
      var p := Frames(w, init);
      LevelFramesSkipEditor(w, init);
      assert p.state.currentScene == Some(Level);
      var f := Frame(p.state, last);
      assert NoneIn(f.trace, UpdateOf(LevelEditorKind));
      NoneInConcat(p.trace, f.trace, UpdateOf(LevelEditorKind));
    }
  }

  /**
    Switching from the level editor to the level: the level's `init` runs once, and from then
    on every update goes to the level and none to the editor.
   */
  lemma EditorThenLevel(w: WindowState, load: string -> Option<string>, dev: LevelEditorScene.SceneDevice, dts: seq<real>)
    ensures var w1 := ChangeScene(w, 0, load, dev).state;
            var s := ChangeScene(w1, 1, load, dev);
            && s.fault.None? && s.state.currentScene == Some(Level)
            && Count(s.trace, SceneInit) == 1
            && NoneIn(Frames(s.state, dts).trace, UpdateOf(LevelEditorKind))
  {
    var w1 := ChangeScene(w, 0, load, dev).state;
    ChangeSceneInitsOnce(w1, 1, load, dev);
    LevelFramesSkipEditor(ChangeScene(w1, 1, load, dev).state, dts);
  }
}

=== FILE: wrappers.dfy ===
/** Failure-compatible values used where the Java code returns null or throws. */
module Wrappers {

  /** A value that may be absent: `null` on the Java side. */
  datatype Option<+T> = None | Some(value: T)

  /** Either a constructed value or the reason construction was refused. */
  datatype Result<+R, +E> = Success(value: R) | Failure(error: E)
}
